=== FILE: README.md ===
# SocketBuild chat and echo servers, modelled in Dafny

This project models the server core of SocketBuild, a Winsock TCP chat
server and its single-client echo predecessor.

- **ClientManager** keeps ten client slots. A min-heap of free slot
  numbers always hands out the lowest free slot.
- **MessageSender** frames a line with CR LF. It unicasts, broadcasts or
  multicasts (to everyone except one socket) and classifies a fan-out as
  SUCCESS, PARTIAL_FAIL or TOTAL_FAIL.
- **SelectManager** rebuilds a watch set, polls it with select() and answers
  readiness queries.
- **MessageReceiver** and **MessageManager** read one recv() into a 1024-byte
  buffer. They cut the text at the first NUL, strip one trailing LF and then
  one trailing CR, and recognise "quit". MessageManager also sends the echo
  reply and the goodbye line.
- **MultiServer** runs the select loop. Each pass admits or turns away a
  pending connection, relays each ready client's line to the other clients,
  and evicts a client, with a leave announcement, when its read does not
  succeed.
- **EchoServer** accepts one client and echoes its lines until it quits,
  disconnects or fails.

Every Winsock call is an input to the model:

| call | modelled as |
|---|---|
| socket/bind/listen | `Transport` |
| accept() | the accepted handle |
| recv() | `RecvCall` |
| select() | `SelectOutcome` |
| send() | a function from socket to return value |

Every send attempt and every `closesocket` is an output: an ordered list of
`Effect`s. The server loops are driven by finite lists of rounds. A round is
either a stop request from another thread or one pass of the loop.

Files:

| file | contents |
|---|---|
| `net.dfy` | socket handles, sentinels, effects, `std::to_string` of an index |
| `client_manager.dfy` | the slot table, its invariant, and slot reuse |
| `message_sender.dfy` | framing and fan-out |
| `select_manager.dfy` | the watch set and one select() |
| `message_receiver.dfy` | the line reader |
| `message_manager.dfy` | the echo server's reader and replies |
| `multi_server.dfy` | the chat server |
| `echo_server.dfy` | the echo server |

Notes on behaviour:

- A chat line is relayed by multicast that excludes the sender, not by a
  broadcast to everyone.
- The relay prefix is `[클라이언트<i>]: `, not a `Player_<i>` nickname.
- A client of the chat server that sends "quit" gets no goodbye. The
  receiver already reports CLIENT_QUIT, and the handler's only goodbye
  branch sits under SUCCESS. So the quit falls to the default branch and the
  client is evicted silently (`MultiServer.QuitDropsWithoutGoodbye`).
- A select() return value below -1 is not SOCKET_ERROR. It is classified
  SUCCESS, as written.

## Model

| member | source | states |
|---|---|---|
| Net.AsEffects | IRC-Chat/SocketBuild/MessageSender.cpp:40-46 | the send attempts of a fan-out become effects one for one, in the same order, and never include a close |
| Net.Decimal | IRC-Chat/SocketBuild/MultiServer.cpp:218 | `std::to_string` of an index is a non-empty string of decimal digits in shortest form (no leading zero except for 0 itself), one digit exactly for 0 to 9 |
| Net.DecimalRoundTrip | IRC-Chat/SocketBuild/ClientManager.cpp:128 | reading the decimal form of an index back gives the index |
| Net.DecimalInjective | IRC-Chat/SocketBuild/ClientManager.cpp:128 | distinct indices render differently, so the numbered names and notices identify the slot |
| Net.RealCount | IRC-Chat/SocketBuild/SelectManager.cpp:32-47 | the number of entries addSocket would count: at most the list length, equal to it iff every entry is a real socket, and 0 iff none is |
| Net.RealSockets | IRC-Chat/SocketBuild/MessageSender.cpp:40-46 | the sockets a fan-out actually reaches, in list order: exactly the real entries of the list, RealCount of them, and the list itself when every entry is real |
| Net.RealSocketsAppend | IRC-Chat/SocketBuild/MessageSender.cpp:40-46 | the real entries of two lists joined are the real entries of the first followed by those of the second, as the loop visits the list front to back |
| ClientManager.LiveSockets | IRC-Chat/SocketBuild/ClientManager.cpp:97-111 | the occupied slots' sockets in slot order: exactly the non-INVALID entries, none of them INVALID |
| ClientManager.NoLiveWhenAllEmpty | IRC-Chat/SocketBuild/ClientManager.cpp:131-139 | a table whose every slot is INVALID_SOCKET has no live socket |
| ClientManager.Init | IRC-Chat/SocketBuild/ClientManager.cpp:4-10 | the constructor gives ten empty slots, every slot number 0-9 free, a count of 0, and a table that satisfies the invariant |
| ClientManager.LiveSocketsFill | IRC-Chat/SocketBuild/ClientManager.cpp:42-43 | storing a socket in an empty slot adds one live socket, so the count stays equal to the number of occupied slots |
| ClientManager.LiveSocketsClear | IRC-Chat/SocketBuild/ClientManager.cpp:67-68 | clearing an occupied slot removes one live socket |
| ClientManager.GetNextIndex | IRC-Chat/SocketBuild/ClientManager.cpp:151-163 | -1 exactly when no slot is free; otherwise the least free slot, which leaves the pool |
| ClientManager.AddClient | IRC-Chat/SocketBuild/ClientManager.cpp:25-47 | -1 with nothing changed iff the socket is INVALID or the table is full; otherwise the least free slot gets the socket, the count grows by one, and only that slot leaves the pool; the invariant is kept |
| ClientManager.Push | IRC-Chat/SocketBuild/ClientManager.cpp:71 | pushing onto the min-heap keeps the free slots in pop order, with the new one added and nothing lost |
| ClientManager.RemoveClient | IRC-Chat/SocketBuild/ClientManager.cpp:49-75 | succeeds iff the index is in range and occupied; then the slot is emptied, the count drops by one and the index is free again; otherwise nothing changes; the invariant is kept |
| ClientManager.GetClientSocket | IRC-Chat/SocketBuild/ClientManager.cpp:77-85 | a real socket iff the index is in range and not free, and that socket is live |
| ClientManager.GetConnectedClientCount | IRC-Chat/SocketBuild/ClientManager.cpp:87-90 | the count is between 0 and 10 and equals the number of live sockets |
| ClientManager.GetClientNickname | IRC-Chat/SocketBuild/ClientManager.cpp:113-129 | "Player_Unknown" iff the slot is out of range or empty; otherwise "Player_" followed by exactly one digit that reads back as the index |
| ClientManager.NicknamesIdentifySlots | IRC-Chat/SocketBuild/ClientManager.cpp:127-128 | two occupied slots with the same nickname are the same slot |
| ClientManager.ReuseAfterRemove | IRC-Chat/SocketBuild/ClientManager.cpp:71 | when every slot below i is occupied, removing client i and admitting a new socket gives slot i back |
| ClientManager.RefillLowestFirst | IRC-Chat/SocketBuild/ClientManager.h:115 | with a full table emptied at slots 5 and then 2, the next two admissions get 2 and then 5 |
| ClientManager.FreeAndLiveCover | IRC-Chat/SocketBuild/ClientManager.cpp:97-111 | the free slots and the live sockets together account for every slot |
| ClientManager.DistinctElements | IRC-Chat/SocketBuild/ClientManager.h:115 | a strictly ordered pool holds as many slot numbers as it has entries |
| ClientManager.PoolAndCountCoverCapacity | IRC-Chat/SocketBuild/ClientManager.h:20 | free slots plus connected clients is always 10, and the pool is empty iff 10 clients are connected |
| ClientManager.LiveSocketsPrefix | IRC-Chat/SocketBuild/ClientManager.cpp:101-108 | the live sockets of the first i slots are a prefix of all live sockets |
| ClientManager.GetAllSockets | IRC-Chat/SocketBuild/ClientManager.cpp:97-111 | copies out the live sockets in slot order, at most maxCount of them, none INVALID |
| ClientManager.CloseAll | IRC-Chat/SocketBuild/ClientManager.cpp:12-23 | the destructor closes exactly the live sockets, one per connected client |
| MessageSender.FormatMessage | IRC-Chat/SocketBuild/MessageSender.cpp:128-132 | the wire form is the message followed by exactly CR LF |
| MessageSender.SendMessage | IRC-Chat/SocketBuild/MessageSender.cpp:134-153 | INVALID_SOCKET is refused with no send; otherwise one packet is sent, and it succeeds iff send() does not return SOCKET_ERROR |
| MessageSender.SuccessCount | IRC-Chat/SocketBuild/MessageSender.cpp:38-46 | the success count is at most the number of targets, equals it iff every delivery succeeds, and is 0 iff none does |
| MessageSender.Attempts | IRC-Chat/SocketBuild/MessageSender.cpp:40-46 | a fan-out sends the formatted line to every real target and to nothing else; how many packets and in which order is stated by AttemptsInOrder |
| MessageSender.AttemptsInOrder | IRC-Chat/SocketBuild/MessageSender.cpp:40-46 | the loop sends exactly one packet per real listed socket: the k-th packet goes to the k-th real socket of the list and carries the formatted line |
| MessageSender.Targets | IRC-Chat/SocketBuild/MessageSender.cpp:81-91 | the targets of a multicast are the listed sockets other than the excluded one |
| MessageSender.TargetsAppend | IRC-Chat/SocketBuild/MessageSender.cpp:81-91 | filtering out the excluded socket from two lists joined is filtering each and joining the results |
| MessageSender.Broadcast | IRC-Chat/SocketBuild/MessageSender.cpp:25-64 | an empty list is TOTAL_FAIL with nothing sent; otherwise every listed real socket gets the framed line; SUCCESS iff all deliver, TOTAL_FAIL iff none does, PARTIAL_FAIL iff some do and some do not; count and order are stated by BroadcastInOrder |
| MessageSender.BroadcastInOrder | IRC-Chat/SocketBuild/MessageSender.cpp:25-46 | broadcast sends one framed packet per real listed socket, in list order, and nothing else |
| MessageSender.Multicast | IRC-Chat/SocketBuild/MessageSender.cpp:66-114 | the excluded socket never gets a packet; an empty list is TOTAL_FAIL; a list with no other target is SUCCESS; otherwise the classification is over the remaining targets; count and order are stated by MulticastInOrder |
| MessageSender.MulticastInOrder | IRC-Chat/SocketBuild/MessageSender.cpp:66-91 | multicast sends one framed packet per real listed socket other than the excluded one, in list order; when every entry is real, that is one packet per non-excluded entry |
| MessageSender.Unicast | IRC-Chat/SocketBuild/MessageSender.cpp:116-126 | INVALID_SOCKET is refused with no send; otherwise the framed line goes to that socket, and it succeeds iff send() does |
| MessageSender.MulticastWithoutExclusionIsBroadcast | IRC-Chat/SocketBuild/MessageSender.cpp:83-98 | excluding a socket that is not listed makes multicast behave exactly as broadcast |
| SelectManager.Create | IRC-Chat/SocketBuild/SelectManager.cpp:12-16 | both fd_sets start empty with a count of 0 |
| SelectManager.SetupFdSet | IRC-Chat/SocketBuild/SelectManager.cpp:23-30 | the watch set is emptied and the count reset; the copy is untouched |
| SelectManager.AddSocket | IRC-Chat/SocketBuild/SelectManager.cpp:32-47 | INVALID_SOCKET is refused with nothing changed; any other socket is watched and counted |
| SelectManager.ClassifySelect | IRC-Chat/SocketBuild/SelectManager.cpp:70-86 | SOCKET_ERROR is FAIL_SELECT, 0 is TIMEOUT, every other value is SUCCESS |
| SelectManager.ExecuteSelect | IRC-Chat/SocketBuild/SelectManager.cpp:49-87 | with nothing counted: NO_SOCKETS and no change; otherwise the copy is exactly the watched sockets select() marks, the watch set is kept, and the result follows the return value |
| SelectManager.ReadyImpliesWatched | IRC-Chat/SocketBuild/SelectManager.cpp:60-67 | after a real select() a socket is ready iff it is watched and select() marked it; in particular only watched sockets can be ready |
| SelectManager.IsSocketReady | IRC-Chat/SocketBuild/SelectManager.cpp:89-94 | readiness is membership in the copy select() left behind, never in the watch set itself; its meaning after select() is given by ReadyImpliesWatched |
| SelectManager.AddAll | IRC-Chat/SocketBuild/MultiServer.cpp:60-63 | adding a list watches exactly its real sockets besides those already watched, leaves the copy alone, and raises the count by exactly the number of real entries (`Net.RealCount`), duplicates included |
| SelectManager.RebuildForgetsPrevious | IRC-Chat/SocketBuild/MultiServer.cpp:51-63 | after a reset and a rebuild, only the sockets added since the reset are watched |
| MessageReceiver.Create | IRC-Chat/SocketBuild/MessageReceiver.cpp:13-17 | a fresh receiver has its socket and an empty last message |
| MessageReceiver.UpToNul | IRC-Chat/SocketBuild/MessageReceiver.cpp:46-47 | the stored text is the longest NUL-free prefix of the received bytes |
| MessageReceiver.CleanMessage | IRC-Chat/SocketBuild/MessageReceiver.cpp:88-99 | the result is a prefix of the message that lacks only "", LF, CR or CR LF; it is unchanged when the message does not end in LF or CR, and a final CR alone loses exactly one character |
| MessageReceiver.ReceiveMessage | IRC-Chat/SocketBuild/MessageReceiver.cpp:24-74 | a positive recv() stores the cleaned text and is CLIENT_QUIT iff that text is "quit", SUCCESS otherwise; 0 is CLIENT_DISCONNECTED and a negative value FAIL_RECEIVE, both with the receiver unchanged |
| MessageReceiver.LastMessageIsLatest | IRC-Chat/SocketBuild/MessageReceiver.cpp:76-80 | after any sequence of reads, getLastMessage is the cleaned text of the latest positive read, or "" if there was none |
| MessageReceiver.SuccessIsNeverQuit | IRC-Chat/SocketBuild/MessageReceiver.cpp:54-60 | a read classified SUCCESS never holds "quit" |
| MessageReceiver.IsQuitCommand | IRC-Chat/SocketBuild/MessageReceiver.cpp:82-86 | the quit test is exact equality with "quit"; its consequences for whole reads are stated by QuitWithAnyEnding and QuitIsExact |
| MessageReceiver.ReceiveLine | IRC-Chat/SocketBuild/MessageReceiver.cpp:41-60 | a positive read of NUL-free bytes that fit the buffer is CLIENT_QUIT iff the bytes clean to "quit", and SUCCESS otherwise |
| MessageReceiver.QuitWithAnyEnding | IRC-Chat/SocketBuild/MessageReceiver.cpp:82-99 | "quit" with no ending, with LF or with CR LF is CLIENT_QUIT |
| MessageReceiver.QuitIsExact | IRC-Chat/SocketBuild/MessageReceiver.cpp:82-86 | "QUIT", "quit " and " quit", each ended by CR LF, are ordinary SUCCESS lines: the test is exact and case-sensitive |
| MessageReceiver.CleanLineEndings | IRC-Chat/SocketBuild/MessageReceiver.cpp:88-99 | CR LF, LF and CR endings are each stripped, and a line without one is kept |
| MessageReceiver.CleanStripsOnlyOnePair | IRC-Chat/SocketBuild/MessageReceiver.cpp:88-99 | only one LF and one CR are stripped, and an LF followed by a CR keeps the LF |
| MessageReceiver.CleanUndoesFormat | IRC-Chat/SocketBuild/MessageReceiver.cpp:88-99 | cleaning a line framed by the sender gives the line back |
| MessageReceiver.ReceiveFramedLine | IRC-Chat/SocketBuild/MessageReceiver.cpp:41-60 | a framed NUL-free line that fits the buffer arrives intact and is classified by the quit test alone |
| MessageReceiver.NoNulKeepsAll | IRC-Chat/SocketBuild/MessageReceiver.cpp:46-47 | bytes without a NUL are stored whole |
| MessageManager.Create | IRC-Chat/SocketBuild/MessageManager.cpp:4-9 | a fresh handler has its socket and an empty last message |
| MessageManager.ReceiveMessage | IRC-Chat/SocketBuild/MessageManager.cpp:16-67 | same classification as the chat reader: a positive read stores the cleaned text and is CLIENT_QUIT iff it is "quit"; 0 and negative values leave the handler unchanged |
| MessageManager.SendEcho | IRC-Chat/SocketBuild/MessageManager.cpp:69-101 | the client gets "Echo: ", the stored message and CR LF, exactly that many characters, and the line cleans back to the stored message; FAIL_SEND iff send() returns SOCKET_ERROR or less |
| MessageManager.SendGoodbye | IRC-Chat/SocketBuild/MessageManager.cpp:103-117 | the client gets "Goodbye!" CR LF; FAIL_SEND iff send() returns exactly SOCKET_ERROR |
| MessageManager.EchoReturnsTheLine | IRC-Chat/SocketBuild/MessageManager.cpp:37-72 | a framed line is echoed back as "Echo: " followed by the same framed line |
| MessageManager.SendChecksDiffer | IRC-Chat/SocketBuild/MessageManager.cpp:87-113 | a send() result below SOCKET_ERROR fails the echo but not the goodbye |
| MultiServer.AllSockets | IRC-Chat/SocketBuild/MultiServer.cpp:57-58 | the loop's socket list is getAllSockets with capacity 10: all live sockets in slot order |
| MultiServer.Create | IRC-Chat/SocketBuild/MultiServer.cpp:4-8 | a new server is not running, has no listening socket and no clients |
| MultiServer.StartServer | IRC-Chat/SocketBuild/MultiServer.cpp:16-42 | SUCCESS, with the server running, iff socket(), bind() and listen() all succeed; otherwise FAIL_START with the running flag unchanged |
| MultiServer.Stop | IRC-Chat/SocketBuild/MultiServer.cpp:118-125 | afterwards the server is not running and nothing else has changed |
| MultiServer.StopIdempotent | IRC-Chat/SocketBuild/MultiServer.cpp:118-125 | stopping twice is stopping once, and stopping a stopped server changes nothing |
| MultiServer.WatchSet | IRC-Chat/SocketBuild/MultiServer.cpp:50-63 | exactly the listening socket, if valid, and the live client sockets are watched, and each is counted once |
| MultiServer.ListenerPreventsNoSockets | IRC-Chat/SocketBuild/MultiServer.cpp:83-86 | with a valid listening socket, the NO_SOCKETS branch is never taken |
| MultiServer.SendWelcomeMessage | IRC-Chat/SocketBuild/MultiServer.cpp:212-224 | an occupied slot's client gets one framed welcome that quotes its slot and the connected count; an empty slot gets nothing |
| MultiServer.AnnounceJoin | IRC-Chat/SocketBuild/MultiServer.cpp:226-235 | every live client other than the newcomer, and no one else, gets the framed join notice; count and order are stated by AnnounceJoinInOrder |
| MultiServer.AnnounceJoinInOrder | IRC-Chat/SocketBuild/MultiServer.cpp:226-235 | the join notice goes out exactly once per live client other than the newcomer, in slot order |
| MultiServer.AnnounceLeave | IRC-Chat/SocketBuild/MultiServer.cpp:237-244 | every live client, the one leaving included, and no one else, gets the framed leave notice; count and order are stated by AnnounceLeaveInOrder |
| MultiServer.AnnounceLeaveInOrder | IRC-Chat/SocketBuild/MultiServer.cpp:237-244 | the leave notice goes out exactly once per live client, the leaving one included, in slot order |
| MultiServer.AddKeepsLive | IRC-Chat/SocketBuild/ClientManager.cpp:42 | registering a socket keeps every socket that was already live |
| MultiServer.AddKeepsSlots | IRC-Chat/SocketBuild/ClientManager.cpp:25-47 | registering a socket never changes an occupied slot |
| MultiServer.Admit | IRC-Chat/SocketBuild/MultiServer.cpp:141-159 | the newcomer takes the least free slot and gets the welcome first, with the count including itself; every other previously live client gets the join notice; no later packet goes to the newcomer |
| MultiServer.HandleNewConnection | IRC-Chat/SocketBuild/MultiServer.cpp:132-160 | a failed accept changes nothing; a full table sends the rejection notice and closes the socket, the table unchanged; otherwise the client is admitted; true iff admitted; occupied slots keep their sockets; the invariant is kept |
| MultiServer.HandleClientMessage | IRC-Chat/SocketBuild/MultiServer.cpp:162-210 | the connection is kept iff the slot is occupied and the read is SUCCESS; then the prefixed line goes to every live client but the sender; a dropped connection sends nothing |
| MultiServer.Evict | IRC-Chat/SocketBuild/MultiServer.cpp:104-109 | a dropped client's leave notice reaches every live client; then its slot is emptied and its socket, and only that socket, is closed last |
| MultiServer.ServeClients | IRC-Chat/SocketBuild/MultiServer.cpp:98-111 | the client pass only ever empties slots at or after its start index, never fills or reassigns one, keeps the listener, flag and select() result, and keeps the invariant; what it sends is bounded above by ServeClientsSendsOnly and ServeClientsClosesOnlyDropped and below by ServeClientsAnnouncesLeaves and ServeClientsRelaysLines |
| MultiServer.ServeSlot | IRC-Chat/SocketBuild/MultiServer.cpp:101-110 | serving one slot empties it, as removeClient does, exactly when its client drops, and otherwise leaves the table alone; listener, flag and select() result are kept; a ready client is served by ServeReady, and an empty or unready slot sends nothing |
| MultiServer.ServeReady | IRC-Chat/SocketBuild/MultiServer.cpp:104-109 | the ready branch: a client whose read is not SUCCESS is evicted and the effects are exactly Evict's, the handler having sent nothing; otherwise the table is unchanged and the effects are exactly the handler's |
| MultiServer.ServeSlotSlots | IRC-Chat/SocketBuild/MultiServer.cpp:101-110 | a slot step changes no other slot, only ever empties its own, and never raises the count |
| MultiServer.ServeSlotSendsExactly | IRC-Chat/SocketBuild/MultiServer.cpp:101-110 | exactly what one slot step emits: a relayed line is the handler's relay and nothing else, reaching every live client but the sender; a drop is the leave notices to every live client in slot order followed by the close of its socket, and nothing else; an empty or unready slot emits nothing |
| MultiServer.ServeSlotSendsOnly | IRC-Chat/SocketBuild/MultiServer.cpp:101-110 | every packet of a slot step goes to a live client and is either the slot's leave notice, on a drop, or its relayed line, on a relay and not to the sender |
| MultiServer.ServeSlotShrinksLive | IRC-Chat/SocketBuild/MultiServer.cpp:107-108 | a slot step never adds a live socket |
| MultiServer.ServeSlotEffects | IRC-Chat/SocketBuild/MultiServer.cpp:101-110 | the facts the pass lemmas build on: a drop closes the client's socket and gives every live client, itself included, the leave notice; a relay reaches every live client but the sender; no other socket is closed (the exact effects are ServeSlotSendsExactly) |
| MultiServer.ServeClientsAnnouncesLeaves | IRC-Chat/SocketBuild/MultiServer.cpp:99-111 | for every slot j at or after the start that the pass drops, the leave notice naming j reaches every client still connected when slot j is served (connected at the start and not dropped at an earlier slot), j's own client included |
| MultiServer.ServeClientsRelaysLines | IRC-Chat/SocketBuild/MultiServer.cpp:99-111 | for every slot j at or after the start whose line the pass reads successfully, the line prefixed with j reaches every other client still connected when slot j is served |
| MultiServer.ServeClientsSendsOnly | IRC-Chat/SocketBuild/MultiServer.cpp:99-111 | every packet of the client pass is, for some slot j at or after the start, j's leave notice when j drops or j's relayed line when j relays (then never to j's own socket), and goes to a client that was live when the pass started |
| MultiServer.ServeClientsClosesOnlyDropped | IRC-Chat/SocketBuild/MultiServer.cpp:99-111 | the client pass closes only the sockets of clients it drops at or after its start index |
| MultiServer.Drops | IRC-Chat/SocketBuild/MultiServer.cpp:101-109 | the eviction condition of the pass: a live socket that select() marked and whose fresh read is not SUCCESS |
| MultiServer.Relays | IRC-Chat/SocketBuild/MultiServer.cpp:101-104 | the relay condition of the pass: a live socket that select() marked and whose fresh read is SUCCESS |
| MultiServer.ServeClientsDropsExactly | IRC-Chat/SocketBuild/MultiServer.cpp:98-111 | from the start index on, an occupied slot is emptied by the pass iff its client is ready and its read is not SUCCESS |
| MultiServer.ServeClientsClosesDropped | IRC-Chat/SocketBuild/MultiServer.cpp:104-109 | every client the pass drops has its socket closed |
| MultiServer.Iterate | IRC-Chat/SocketBuild/MultiServer.cpp:48-111 | a pass ends the loop iff select() fails; TIMEOUT and NO_SOCKETS do nothing; a pass admits at most one client; the invariant and the running flag are kept |
| MultiServer.ServeListener | IRC-Chat/SocketBuild/MultiServer.cpp:89-96 | a ready listening socket is handed to handleNewConnection and otherwise nothing happens; either way every occupied slot keeps its socket and at most one client is added |
| MultiServer.IterateServes | IRC-Chat/SocketBuild/MultiServer.cpp:66-111 | after a successful select(), a pass is the listening-socket step followed by the client pass from slot 0, with their effects in that order |
| MultiServer.PassDropsExactly | IRC-Chat/SocketBuild/MultiServer.cpp:89-111 | after a successful select(), a client connected before the pass is evicted and closed iff it was ready and its read was not SUCCESS; no empty slot is filled unless the listener was ready |
| MultiServer.ClientsAnnounceAfterListener | IRC-Chat/SocketBuild/MultiServer.cpp:89-111 | admitting a client only fills an empty slot, so the client pass after the listening-socket step still announces every drop to every client connected before the pass that is still connected at that slot |
| MultiServer.ClientsRelayAfterListener | IRC-Chat/SocketBuild/MultiServer.cpp:89-111 | likewise, the client pass after the listening-socket step relays every successfully read line to every other client connected before the pass that is still connected at that slot |
| MultiServer.PassAnnouncesLeaves | IRC-Chat/SocketBuild/MultiServer.cpp:66-111 | after a successful select(), every client connected before the pass that the pass drops has its leave notice sent to every client still connected when its slot is served, itself included |
| MultiServer.PassRelaysLines | IRC-Chat/SocketBuild/MultiServer.cpp:66-111 | after a successful select(), every line read successfully from a client connected before the pass reaches every other client still connected when its slot is served, prefixed with the sender's slot number |
| MultiServer.RunServerLoop | IRC-Chat/SocketBuild/MultiServer.cpp:44-116 | the loop returns SUCCESS only once the flag is clear and FAIL_LOOP only while it is still set; a stopped server returns SUCCESS at once with no effects; a stop round continues as the loop on the stopped server; a poll round is one Iterate pass, and a failed one ends the loop with FAIL_LOOP and exactly that pass's effects, while any other pass's effects come first and the rest of the run continues from its server |
| MultiServer.RelayReachesOthers | IRC-Chat/SocketBuild/MultiServer.cpp:176-196 | a framed non-quit line keeps its sender connected and reaches every other live client as "[클라이언트<i>]: " and the line; the sender gets nothing back |
| MultiServer.QuitDropsWithoutGoodbye | IRC-Chat/SocketBuild/MultiServer.cpp:174-208 | "quit" drops the client with nothing sent to it |
| MultiServer.QuitEvictedInPass | IRC-Chat/SocketBuild/MultiServer.cpp:98-111 | a ready client in any slot j at or after the start of the pass that sends "quit" is evicted, its socket is closed, and every client still connected when slot j is served, its own included, gets the leave notice |
| MultiServer.StopEndsLoop | IRC-Chat/SocketBuild/MultiServer.cpp:118-125 | a stop before the next flag check ends the loop with SUCCESS and no more effects |
| MultiServer.FailedPollEndsLoop | IRC-Chat/SocketBuild/MultiServer.cpp:79-81 | a failed select() ends the loop at once with FAIL_LOOP, still running, nothing sent |
| MultiServer.PassAdmitsPendingConnection | IRC-Chat/SocketBuild/MultiServer.cpp:89-96 | when the listener is ready and a slot is free, the pass admits the client, and its welcome is the first packet of the pass |
| EchoServer.Create | IRC-Chat/SocketBuild/EchoServer.cpp:4-8 | a new server is not running and has no listening socket |
| EchoServer.StartServer | IRC-Chat/SocketBuild/EchoServer.cpp:16-41 | SUCCESS, with the server running, iff all three setup calls succeed; otherwise FAIL_START with the flag unchanged |
| EchoServer.Stop | IRC-Chat/SocketBuild/EchoServer.cpp:64-72 | afterwards the server is not running |
| EchoServer.StopIdempotent | IRC-Chat/SocketBuild/EchoServer.cpp:64-72 | stopping twice is stopping once |
| EchoServer.ProcessMessage | IRC-Chat/SocketBuild/EchoServer.cpp:107-134 | a line is echoed, and SUCCESS iff the echo send succeeds; a quit gets the goodbye and is CLIENT_HANDLED whatever that send does; a disconnect is CLIENT_HANDLED; a failed read or any other result is CLIENT_ERROR with nothing sent |
| EchoServer.Serve | IRC-Chat/SocketBuild/EchoServer.cpp:88-104 | the session ends with SUCCESS iff the running flag was cleared; a stop round continues as the loop on the stopped server; an exchange round reads one line and hands the verdict to ProcessMessage, continuing on SUCCESS and otherwise ending with that verdict and its effects; every packet goes to the client, and nothing is closed |
| EchoServer.HandleClientMessages | IRC-Chat/SocketBuild/EchoServer.cpp:80-105 | the session equals the read loop run from a fresh handler for the client socket (empty last message); every effect is a packet to that client |
| EchoServer.AwaitClientConnect | IRC-Chat/SocketBuild/EchoServer.cpp:43-62 | a failed accept is FAIL_ACCEPT with nothing done; otherwise the session's verdict is returned and the client socket is closed exactly once, after everything else |
| EchoServer.Echoes | IRC-Chat/SocketBuild/MessageManager.cpp:72 | the echo of each line, in order, to the client |
| EchoServer.EchoesEveryLine | IRC-Chat/SocketBuild/EchoServer.cpp:88-104 | with ordinary lines and working sends, every line is echoed back in order, and a later stop ends the session with SUCCESS |
| EchoServer.QuitGetsGoodbye | IRC-Chat/SocketBuild/EchoServer.cpp:119-122 | "quit" gets exactly the goodbye line and ends the session CLIENT_HANDLED |
| EchoServer.FailedEchoEndsSession | IRC-Chat/SocketBuild/EchoServer.cpp:111-115 | a failed echo send ends the session with CLIENT_ERROR after that one attempt |

## Left out

- Winsock itself is not modelled. `socket`, `bind`, `listen`, `accept`,
  `recv`, `send`, `select` and `closesocket` are inputs or recorded
  effects. WSAStartup (SocketIniter) and TCPSocket are not part of this
  model.
- `fd_set` internals are not modelled. In particular its 64-socket
  capacity is left out; it is never reached with at most eleven sockets.
- The select() timeout and the `Sleep(100)` after NO_SOCKETS are left out,
  because time is not modelled.
- Logging (`LOG_*`, DebugHelper.h) and memory-leak tracing are left out.
  Neither affects any result.
- Program.cpp and main.cpp, which choose a server and wire up signals, are
  left out as program start-up.
- `isRunning` is left out. It is the `running` field.
- `isValidIndex` is the `IsValidIndex` predicate and has no row of its own.
- The constructors' port argument is left out. It only reaches bind().
- MessageSender.Broadcast and MessageSender.Multicast: a negative
  `socket_count` is not modelled, because a list length cannot be negative.
  The callers always pass getAllSockets' non-negative result.
- Partial sends are not modelled. A send() result counts only as
  SOCKET_ERROR or not, as the source checks it.
- MultiServer.ServeClients: `send` is the same function during a whole
  pass, so a socket's send outcome does not change between two sends in
  one pass.
- MultiServer.ServeClients: `recv` outcomes are given per slot index, not
  per socket.
- MultiServer.RunServerLoop and EchoServer.Serve run on a finite list of
  rounds. They report no result (`None`) when the rounds run out while
  the server is still running. Runs that never end are not modelled.
- EchoServer.Exchanges is a scenario builder (one recv() round per line)
  used to state EchoServer.EchoesEveryLine; it models no source line.
- MessageReceiver.GetLastMessage and MessageManager.GetLastMessage are plain
  accessors. Their meaning is stated by `MessageReceiver.LastMessageIsLatest`.
- MessageManager's own `cleanMessage` and `isQuitCommand` are line for line
  the receiver's. The model uses the receiver's definitions for both.
- Strings are sequences of characters, one character per received byte.
  The Korean message literals are kept as Unicode text, so their UTF-8
  byte lengths in the C++ build are not modelled; no stated property
  depends on them.
- The destructors' calls to `stop()` are left out. So is the per-client
  `closesocket` ordering on shutdown beyond `ClientManager.CloseAll`.

=== FILE: client_manager.dfy ===
/** The slot table of the chat server: a fixed array of MAX_CLIENTS socket
    slots, INVALID_SOCKET marking an empty one, and a min-ordered pool of the
    free slot indices so that the smallest free index is always reused first. */
module ClientManager {
  import opened Net

  const MAX_CLIENTS: nat := 10

  /** `slots` is the socket array; `available` holds the contents of the
      min-priority queue in the order it pops them; `count` is the connected
      socket counter the table maintains alongside. */
  datatype Table = Table(slots: seq<Socket>, available: seq<int>, count: int)

  datatype Added = Added(table: Table, index: int)

  datatype Removed = Removed(table: Table, ok: bool)

  predicate StrictlyIncreasing(q: seq<int>) {
    forall a, b :: 0 <= a < b < |q| ==> q[a] < q[b]
  }

  /** The occupied sockets of a slot array, in ascending index order. */
  function LiveSockets(slots: seq<Socket>): (live: seq<Socket>)
    ensures |live| <= |slots|
    ensures forall k :: 0 <= k < |live| ==> live[k] != INVALID_SOCKET
    ensures forall s :: s in live <==> s in slots && s != INVALID_SOCKET
  {
    if |slots| == 0 then []
    else LiveSockets(slots[..|slots| - 1])
         + (if slots[|slots| - 1] != INVALID_SOCKET then [slots[|slots| - 1]] else [])
  }

  /** The object invariant: the slot array has MAX_CLIENTS entries; the free
      pool is duplicate-free, sorted and holds exactly the indices of the
      empty slots (so pool and live indices partition [0, MAX_CLIENTS)); and
      the counter equals the number of occupied slots. */
  ghost predicate Valid(t: Table) {
    && |t.slots| == MAX_CLIENTS
    && StrictlyIncreasing(t.available)
    && (forall k :: 0 <= k < |t.available| ==> 0 <= t.available[k] < MAX_CLIENTS)
    && (forall i :: 0 <= i < MAX_CLIENTS ==> (i in t.available <==> t.slots[i] == INVALID_SOCKET))
    && t.count == |LiveSockets(t.slots)|
  }

  predicate IsValidIndex(i: int) {
    0 <= i < MAX_CLIENTS
  }

  /** `i` is the smallest index whose slot is empty. */
  ghost predicate IsLeastFree(t: Table, i: int)
    requires |t.slots| == MAX_CLIENTS
  {
    && IsValidIndex(i)
    && t.slots[i] == INVALID_SOCKET
    && forall j :: 0 <= j < MAX_CLIENTS && t.slots[j] == INVALID_SOCKET ==> i <= j
  }

  /** Every slot is occupied. */
  ghost predicate Full(t: Table)
    requires |t.slots| == MAX_CLIENTS
  {
    forall i :: 0 <= i < MAX_CLIENTS ==> t.slots[i] != INVALID_SOCKET
  }

  lemma {:induction false} NoLiveWhenAllEmpty(slots: seq<Socket>)
    requires forall i :: 0 <= i < |slots| ==> slots[i] == INVALID_SOCKET
    ensures LiveSockets(slots) == []
  {
    if |slots| > 0 {
      NoLiveWhenAllEmpty(slots[..|slots| - 1]);
    }
  }

  /** The constructor with both initialisers: every slot empty, the counter at
      zero, and all indices 0..MAX_CLIENTS-1 queued as free. */
  function Init(): (t: Table)
    ensures Valid(t)
    ensures forall i :: 0 <= i < MAX_CLIENTS ==> t.slots[i] == INVALID_SOCKET && i in t.available
    ensures t.count == 0 && LiveSockets(t.slots) == []
  {
    var slots := seq(MAX_CLIENTS, _ => INVALID_SOCKET);
    var pool := seq(MAX_CLIENTS, i => i);
    NoLiveWhenAllEmpty(slots);
    forall i | 0 <= i < MAX_CLIENTS ensures i in pool && slots[i] == INVALID_SOCKET {
      assert pool[i] == i;
    }
    Table(slots, pool, 0)
  }

  /** Filling an empty slot adds exactly one live socket. */
  lemma {:induction false} LiveSocketsFill(slots: seq<Socket>, i: int, s: Socket)
    requires 0 <= i < |slots| && slots[i] == INVALID_SOCKET && s != INVALID_SOCKET
    ensures |LiveSockets(slots[i := s])| == |LiveSockets(slots)| + 1
  {
    var n := |slots| - 1;
    var u := slots[i := s];
    assert u[..n] == if i == n then slots[..n] else slots[..n][i := s];
    if i < n {
      LiveSocketsFill(slots[..n], i, s);
    }
  }

  /** Clearing an occupied slot removes exactly one live socket. */
  lemma {:induction false} LiveSocketsClear(slots: seq<Socket>, i: int)
    requires 0 <= i < |slots| && slots[i] != INVALID_SOCKET
    ensures |LiveSockets(slots[i := INVALID_SOCKET])| + 1 == |LiveSockets(slots)|
  {
    var n := |slots| - 1;
    var u := slots[i := INVALID_SOCKET];
    assert u[..n] == if i == n then slots[..n] else slots[..n][i := INVALID_SOCKET];
    if i < n {
      LiveSocketsClear(slots[..n], i);
    }
  }

  /** Pops the top of the free pool: the smallest free index, or -1 when the
      pool is empty. */
  function GetNextIndex(t: Table): (r: Added)
    requires Valid(t)
    ensures r.index == -1 <==> Full(t)
    ensures r.index == -1 ==> r.table == t
    ensures r.index != -1 ==> IsLeastFree(t, r.index)
    ensures r.index != -1 ==>
      && r.table.slots == t.slots && r.table.count == t.count
      && r.index !in r.table.available
      && forall j :: j != r.index ==> (j in r.table.available <==> j in t.available)
  {
    if |t.available| == 0 then
      Added(t, -1)
    else
      var i := t.available[0];
      assert forall j :: j in t.available ==> i <= j by {
        forall j | j in t.available ensures i <= j {
          var k :| 0 <= k < |t.available| && t.available[k] == j;
        }
      }
      assert t.slots[i] == INVALID_SOCKET;
      assert t.available == [i] + t.available[1..];
      Added(Table(t.slots, t.available[1..], t.count), i)
  }

  /** Registers a client socket in the smallest free slot and returns its
      index; returns -1 and changes nothing for INVALID_SOCKET or when every
      slot is taken. */
  function AddClient(t: Table, s: Socket): (r: Added)
    requires Valid(t)
    ensures Valid(r.table)
    ensures r.index == -1 <==> s == INVALID_SOCKET || Full(t)
    ensures r.index == -1 ==> r.table == t
    ensures r.index != -1 ==>
      && IsLeastFree(t, r.index)
      && r.table.slots == t.slots[r.index := s]
      && r.table.count == t.count + 1
      && r.index !in r.table.available
      && forall j :: j != r.index ==> (j in r.table.available <==> j in t.available)
  {
    if s == INVALID_SOCKET then
      Added(t, -1)
    else
      var next := GetNextIndex(t);
      if next.index == -1 then
        Added(t, -1)
      else
        var i := next.index;
        LiveSocketsFill(t.slots, i, s);
        var u := Table(t.slots[i := s], next.table.available, t.count + 1);
        assert StrictlyIncreasing(u.available) by {
          assert u.available == t.available[1..];
        }
        Added(u, i)
  }

  /** Inserts `x` into an ascending pool before the first element not below
      it, as a push onto the min-priority queue does for the pop order. */
  function Push(q: seq<int>, x: int): (r: seq<int>)
    ensures |r| == |q| + 1
    ensures forall y :: y in r <==> y in q || y == x
    ensures r[0] == if |q| == 0 || x <= q[0] then x else q[0]
    ensures StrictlyIncreasing(q) && x !in q ==> StrictlyIncreasing(r)
  {
    if |q| == 0 then [x]
    else if x <= q[0] then [x] + q
    else
      var rest := Push(q[1..], x);
      assert q == [q[0]] + q[1..];
      assert StrictlyIncreasing(q) && x !in q ==> forall b :: 0 <= b < |rest| ==> q[0] < rest[b] by {
        if StrictlyIncreasing(q) && x !in q {
          forall b | 0 <= b < |rest| ensures q[0] < rest[b] {
            assert rest[b] in rest;
            if rest[b] != x {
              var k :| 0 <= k < |q[1..]| && q[1..][k] == rest[b];
              assert q[k + 1] == rest[b];
            }
          }
        }
      }
      [q[0]] + rest
  }

  /** Empties slot `i` (the socket is closed there) and pushes `i` back onto
      the free pool; fails and changes nothing for an index outside
      [0, MAX_CLIENTS) or a slot that is already empty. */
  function RemoveClient(t: Table, i: int): (r: Removed)
    requires Valid(t)
    ensures Valid(r.table)
    ensures r.ok <==> IsValidIndex(i) && t.slots[i] != INVALID_SOCKET
    ensures !r.ok ==> r.table == t
    ensures r.ok ==>
      && r.table.slots == t.slots[i := INVALID_SOCKET]
      && r.table.count == t.count - 1
      && i in r.table.available
      && forall j :: j != i ==> (j in r.table.available <==> j in t.available)
  {
    if !IsValidIndex(i) then
      Removed(t, false)
    else if t.slots[i] == INVALID_SOCKET then
      Removed(t, false)
    else
      LiveSocketsClear(t.slots, i);
      var pool := Push(t.available, i);
      assert forall k :: 0 <= k < |pool| ==> pool[k] in pool;
      Removed(Table(t.slots[i := INVALID_SOCKET], pool, t.count - 1), true)
  }

  /** The socket in slot `i`, or INVALID_SOCKET for an index out of range. */
  function GetClientSocket(t: Table, i: int): (s: Socket)
    requires Valid(t)
    ensures s != INVALID_SOCKET <==> IsValidIndex(i) && i !in t.available
    ensures s != INVALID_SOCKET ==> s in LiveSockets(t.slots) && s == t.slots[i]
  {
    if !IsValidIndex(i) then INVALID_SOCKET else t.slots[i]
  }

  function GetConnectedClientCount(t: Table): (n: int)
    requires Valid(t)
    ensures 0 <= n <= MAX_CLIENTS
    ensures n == |LiveSockets(t.slots)|
  {
    t.count
  }

  const UNKNOWN_NICKNAME: string := "Player_Unknown"
  const NICKNAME_PREFIX: string := "Player_"

  /** The display name of a slot: "Player_" and the decimal index for an
      occupied slot, the fixed "Player_Unknown" otherwise. */
  function GetClientNickname(t: Table, i: int): (name: string)
    requires Valid(t)
    ensures name == UNKNOWN_NICKNAME <==> GetClientSocket(t, i) == INVALID_SOCKET
    ensures name != UNKNOWN_NICKNAME ==>
      && |name| == |NICKNAME_PREFIX| + 1
      && name[..|NICKNAME_PREFIX|] == NICKNAME_PREFIX
      && (forall k :: |NICKNAME_PREFIX| <= k < |name| ==> IsDigit(name[k]))
      && ParseDecimal(name[|NICKNAME_PREFIX|..]) == i
  {
    if !IsValidIndex(i) then UNKNOWN_NICKNAME
    else if t.slots[i] == INVALID_SOCKET then UNKNOWN_NICKNAME
    else
      var name := NICKNAME_PREFIX + Decimal(i);
      assert name[|NICKNAME_PREFIX|] == Decimal(i)[0];
      assert name[|NICKNAME_PREFIX|..] == Decimal(i);
      DecimalRoundTrip(i);
      name
  }

  /** Two occupied slots never share a display name. */
  lemma NicknamesIdentifySlots(t: Table, i: int, j: int)
    requires Valid(t)
    requires GetClientNickname(t, i) != UNKNOWN_NICKNAME
    ensures GetClientNickname(t, i) == GetClientNickname(t, j) ==> i == j
  {
  }

  /** Removing slot `i` and admitting again hands out `i` once more when
      every slot below `i` is still occupied: reuse is smallest-index-first. */
  lemma ReuseAfterRemove(t: Table, i: int, s: Socket)
    requires Valid(t) && IsValidIndex(i) && t.slots[i] != INVALID_SOCKET && s != INVALID_SOCKET
    requires forall j :: 0 <= j < i ==> t.slots[j] != INVALID_SOCKET
    ensures AddClient(RemoveClient(t, i).table, s).index == i
  {
  }

  /** On a full table, evicting slots 5 and then 2 and admitting two new
      sockets gives them indices 2 and 5, in that order. */
  lemma RefillLowestFirst(t: Table, a: Socket, b: Socket)
    requires Valid(t) && Full(t) && a != INVALID_SOCKET && b != INVALID_SOCKET
    ensures
      var u := RemoveClient(RemoveClient(t, 5).table, 2).table;
      var first := AddClient(u, a);
      var second := AddClient(first.table, b);
      first.index == 2 && second.index == 5
  {
  }

  /** The set of indices of empty slots. */
  ghost function FreeIndices(slots: seq<Socket>, n: int): set<int>
    requires 0 <= n <= |slots|
  {
    set i | 0 <= i < n && slots[i] == INVALID_SOCKET
  }

  lemma {:induction false} FreeAndLiveCover(slots: seq<Socket>, n: int)
    requires 0 <= n <= |slots|
    ensures |FreeIndices(slots, n)| + |LiveSockets(slots[..n])| == n
  {
    if n > 0 {
      FreeAndLiveCover(slots, n - 1);
      assert slots[..n][..n - 1] == slots[..n - 1];
      if slots[n - 1] == INVALID_SOCKET {
        assert FreeIndices(slots, n) == FreeIndices(slots, n - 1) + {n - 1};
      } else {
        assert FreeIndices(slots, n) == FreeIndices(slots, n - 1);
      }
    } else {
      assert FreeIndices(slots, n) == {};
    }
  }

  lemma {:induction false} DistinctElements(q: seq<int>)
    requires StrictlyIncreasing(q)
    ensures |set x | x in q| == |q|
  {
    if |q| > 0 {
      var p := q[..|q| - 1];
      DistinctElements(p);
      assert q == p + [q[|q| - 1]];
      assert q[|q| - 1] !in p;
      assert (set x | x in q) == (set x | x in p) + {q[|q| - 1]};
    } else {
      assert (set x | x in q) == {};
    }
  }

  /** The free pool and the occupied slots account for every index exactly
      once: their sizes always add up to MAX_CLIENTS. */
  lemma PoolAndCountCoverCapacity(t: Table)
    requires Valid(t)
    ensures |t.available| + t.count == MAX_CLIENTS
    ensures t.count == MAX_CLIENTS <==> |t.available| == 0
  {
    DistinctElements(t.available);
    assert (set x | x in t.available) == FreeIndices(t.slots, MAX_CLIENTS);
    FreeAndLiveCover(t.slots, MAX_CLIENTS);
    assert t.slots[..MAX_CLIENTS] == t.slots;
  }

  function Max0(n: int): nat {
    if n < 0 then 0 else n
  }

  /** The first `n` elements of `s`, or all of them if there are fewer. */
  function Take(s: seq<Socket>, n: int): (r: seq<Socket>)
    ensures |r| == if Max0(n) < |s| then Max0(n) else |s|
    ensures r == s[..|r|]
  {
    if Max0(n) < |s| then s[..Max0(n)] else s
  }

  /** The live sockets of a prefix of the slot array are a prefix of the
      live sockets of the whole array. */
  lemma {:induction false} LiveSocketsPrefix(slots: seq<Socket>, i: int)
    requires 0 <= i <= |slots|
    ensures |LiveSockets(slots[..i])| <= |LiveSockets(slots)|
    ensures LiveSockets(slots[..i]) == LiveSockets(slots)[..|LiveSockets(slots[..i])|]
    decreases |slots| - i
  {
    if i < |slots| {
      LiveSocketsPrefix(slots, i + 1);
      var a := LiveSockets(slots[..i]);
      var b := LiveSockets(slots[..i + 1]);
      assert slots[..i + 1][..i] == slots[..i];
      assert b == a + (if slots[i] != INVALID_SOCKET then [slots[i]] else []);
      assert a == b[..|a|];
    } else {
      assert slots[..i] == slots;
    }
  }

  /** Copies the occupied sockets, in index order, into the caller's array of
      capacity `maxCount` and returns what was copied (its length is the
      count the source returns). */
  method GetAllSockets(t: Table, maxCount: int) returns (sockets: seq<Socket>)
    requires Valid(t)
    ensures sockets == Take(LiveSockets(t.slots), maxCount)
    ensures |sockets| <= Max0(maxCount) && |sockets| <= t.count
    ensures forall k :: 0 <= k < |sockets| ==> sockets[k] != INVALID_SOCKET
  {
    sockets := [];
    var i := 0;
    while i < MAX_CLIENTS && |sockets| < maxCount
      invariant 0 <= i <= MAX_CLIENTS
      invariant sockets == LiveSockets(t.slots[..i])
      invariant |sockets| <= Max0(maxCount)
    {
      assert t.slots[..i + 1][..i] == t.slots[..i];
      if t.slots[i] != INVALID_SOCKET {
        sockets := sockets + [t.slots[i]];
      }
      i := i + 1;
    }
    LiveSocketsPrefix(t.slots, i);
    var live := LiveSockets(t.slots);
    if i == MAX_CLIENTS {
      assert t.slots[..i] == t.slots;
    } else if maxCount <= 0 {
      assert sockets == [];
    } else {
      assert |sockets| == maxCount;
      assert sockets == live[..maxCount];
    }
  }

  /** The destructor's clean-up: every occupied slot's socket is closed once,
      in index order, and nothing else is closed. */
  method CloseAll(t: Table) returns (closed: seq<Socket>)
    requires Valid(t)
    ensures closed == LiveSockets(t.slots)
    ensures |closed| == t.count
  {
    closed := [];
    var i := 0;
    while i < MAX_CLIENTS
      invariant 0 <= i <= MAX_CLIENTS
      invariant closed == LiveSockets(t.slots[..i])
    {
      assert t.slots[..i + 1][..i] == t.slots[..i];
      if t.slots[i] != INVALID_SOCKET {
        closed := closed + [t.slots[i]];
      }
      i := i + 1;
    }
    assert t.slots[..i] == t.slots;
  }
}

=== FILE: echo_server.dfy ===
/** The single-client echo server: start, accept one client, then echo each
    line back until the client quits, disconnects or fails, or until the
    running flag is cleared; the client socket is closed afterwards. The
    flag can be cleared from outside between two reads, so the read loop
    consumes a finite list of rounds, each either a stop request or one
    exchange with the platform's recv() and send() outcomes. */
module EchoServer {
  import opened Net
  import MM = MessageManager
  import MR = MessageReceiver
  import MS = MessageSender

  datatype Result = SUCCESS | FAIL_START | FAIL_ACCEPT | CLIENT_HANDLED | CLIENT_ERROR

  /** The listening socket and the running flag. */
  datatype Server = Server(listener: Socket, running: bool)

  datatype Started = Started(server: Server, result: Result)

  /** A result of processMessage with the packets it handed to send(). */
  datatype Processed = Processed(result: Result, effects: seq<Effect>)

  /** One turn of the read loop: a stop request before the flag is next
      checked, or one recv() and the send() outcome of any reply. */
  datatype Round = StopRequested | Exchange(call: MR.RecvCall, send: SendFn)

  /** Where a session ended: the server, the handler, the result (None when
      the rounds ran out with the flag still set) and the effects in order. */
  datatype Session = Session(server: Server, handler: MM.Handler,
                             result: Option<Result>, effects: seq<Effect>)

  /** The constructor: not running, no socket yet. */
  function Create(): (s: Server)
    ensures !s.running && s.listener == INVALID_SOCKET
  {
    Server(INVALID_SOCKET, false)
  }

  /** Creates, binds and listens; the first failing step makes the call
      return FAIL_START with the flag as it was, and only full success sets
      the flag. */
  function StartServer(s: Server, tr: Transport): (r: Started)
    ensures r.result == SUCCESS <==> tr.created != INVALID_SOCKET && tr.bindOk && tr.listenOk
    ensures r.result != SUCCESS ==> r.result == FAIL_START && r.server.running == s.running
    ensures r.result == SUCCESS ==> r.server.running
    ensures r.server.listener == tr.created
  {
    var s1 := s.(listener := tr.created);
    if tr.created == INVALID_SOCKET then Started(s1, FAIL_START)
    else if !tr.bindOk then Started(s1, FAIL_START)
    else if !tr.listenOk then Started(s1, FAIL_START)
    else Started(s1.(running := true), SUCCESS)
  }

  /** Clears the running flag; nothing else changes. */
  function Stop(s: Server): (r: Server)
    ensures !r.running && r.listener == s.listener
  {
    if s.running then s.(running := false) else s
  }

  /** Stopping twice is stopping once. */
  lemma StopIdempotent(s: Server)
    ensures Stop(Stop(s)) == Stop(s)
    ensures !s.running ==> Stop(s) == s
  {
  }

  /** Maps one receive result to the server's verdict, sending the echo or
      the goodbye on the way. A line is echoed and the session goes on only
      if the echo send succeeds; a quit gets a goodbye whose own outcome is
      ignored; a disconnect ends the session normally; a failed read, and
      any other result, is a client error. */
  function ProcessMessage(h: MM.Handler, received: MR.Result, send: SendFn): (r: Processed)
    ensures forall x :: Closed(x) !in r.effects
    ensures received == MR.SUCCESS ==>
      && r.effects == [Sent(MM.SendEcho(h, send).packet)]
      && (r.result == SUCCESS <==> send(h.socket) > SOCKET_ERROR)
      && (r.result == CLIENT_ERROR <==> send(h.socket) <= SOCKET_ERROR)
    ensures received == MR.CLIENT_QUIT ==>
      r == Processed(CLIENT_HANDLED, [Sent(Packet(h.socket, MS.FormatMessage("Goodbye!")))])
    ensures received == MR.CLIENT_DISCONNECTED ==> r == Processed(CLIENT_HANDLED, [])
    ensures received in {MR.FAIL_RECEIVE, MR.FAIL_SEND} ==> r == Processed(CLIENT_ERROR, [])
    ensures r.result in {SUCCESS, CLIENT_HANDLED, CLIENT_ERROR}
  {
    match received
    case SUCCESS =>
      var echo := MM.SendEcho(h, send);
      if echo.result != MR.SUCCESS then Processed(CLIENT_ERROR, [Sent(echo.packet)])
      else Processed(SUCCESS, [Sent(echo.packet)])
    case CLIENT_QUIT =>
      var goodbye := MM.SendGoodbye(h, send);
      Processed(CLIENT_HANDLED, [Sent(goodbye.packet)])
    case CLIENT_DISCONNECTED => Processed(CLIENT_HANDLED, [])
    case FAIL_RECEIVE => Processed(CLIENT_ERROR, [])
    case _ => Processed(CLIENT_ERROR, [])
  }

  /** The read loop from handler `h` on: while the flag is set, read once and
      process; the first verdict other than SUCCESS ends the session with
      that verdict, and a cleared flag ends it with SUCCESS. */
  function Serve(s: Server, h: MM.Handler, rounds: seq<Round>): (r: Session)
    ensures r.handler.socket == h.socket && r.server.listener == s.listener
    ensures forall x :: Closed(x) !in r.effects
    ensures forall e :: e in r.effects ==> e.Sent? && e.packet.target == h.socket
    ensures r.result == Some(SUCCESS) <==> !r.server.running
    ensures r.result == None ==> r.server.running
    ensures r.result in {None, Some(SUCCESS), Some(CLIENT_HANDLED), Some(CLIENT_ERROR)}
    ensures !s.running ==> r == Session(s, h, Some(SUCCESS), [])
    ensures s.running && |rounds| > 0 && rounds[0].StopRequested? ==>
      r == Serve(Stop(s), h, rounds[1..])
    ensures s.running && |rounds| > 0 && rounds[0].Exchange? ==>
      var rec := MM.ReceiveMessage(h, rounds[0].call);
      var p := ProcessMessage(rec.handler, rec.result, rounds[0].send);
      && (p.result != SUCCESS ==> r.result == Some(p.result) && r.effects == p.effects)
      && (p.result == SUCCESS ==>
            var rest := Serve(s, rec.handler, rounds[1..]);
            && r.result == rest.result
            && |r.effects| == |p.effects| + |rest.effects|
            && r.effects[..|p.effects|] == p.effects
            && r.effects[|p.effects|..] == rest.effects)
    decreases |rounds|
  {
    if !s.running then Session(s, h, Some(SUCCESS), [])
    else if |rounds| == 0 then Session(s, h, None, [])
    else
      match rounds[0]
      case StopRequested => Serve(Stop(s), h, rounds[1..])
      case Exchange(call, send) =>
        var rec := MM.ReceiveMessage(h, call);
        var processed := ProcessMessage(rec.handler, rec.result, send);
        if processed.result != SUCCESS then
          Session(s, rec.handler, Some(processed.result), processed.effects)
        else
          var rest := Serve(s, rec.handler, rounds[1..]);
          Session(rest.server, rest.handler, rest.result, processed.effects + rest.effects)
  }

  /** handleClientMessages: a fresh handler for the client socket, then the
      read loop. */
  function HandleClientMessages(s: Server, client: Socket, rounds: seq<Round>): (r: Session)
    ensures r == Serve(s, MM.Create(client), rounds)
    ensures r.handler.socket == client
    ensures forall e :: e in r.effects ==> e.Sent? && e.packet.target == client
    ensures r.result == Some(SUCCESS) <==> !r.server.running
    ensures r.result in {None, Some(SUCCESS), Some(CLIENT_HANDLED), Some(CLIENT_ERROR)}
  {
    Serve(s, MM.Create(client), rounds)
  }

  /** awaitClientConnect: a failed accept is FAIL_ACCEPT with nothing sent or
      closed. Otherwise the client is served and its socket closed exactly
      once, last, and the session's verdict is returned. */
  function AwaitClientConnect(s: Server, accepted: Socket, rounds: seq<Round>): (r: Session)
    ensures accepted == INVALID_SOCKET ==> r.result == Some(FAIL_ACCEPT) && r.effects == []
    ensures accepted != INVALID_SOCKET ==>
      var session := HandleClientMessages(s, accepted, rounds);
      && r.result == session.result
      && r.effects == session.effects + [Closed(accepted)]
      && (forall x :: Closed(x) in r.effects ==> x == accepted)
      && (forall k :: 0 <= k < |r.effects| - 1 ==> r.effects[k] != Closed(accepted))
    ensures r.result != Some(FAIL_ACCEPT) <==> accepted != INVALID_SOCKET
  {
    if accepted == INVALID_SOCKET then Session(s, MM.Create(accepted), Some(FAIL_ACCEPT), [])
    else
      var session := HandleClientMessages(s, accepted, rounds);
      var effects := session.effects + [Closed(accepted)];
      assert forall k :: 0 <= k < |effects| - 1 ==> effects[k] == session.effects[k];
      Session(session.server, session.handler, session.result, effects)
  }

  /** The rounds in which a client sends each of `lines` with the usual
      framing and every send succeeds, one recv() per line. */
  function Exchanges(lines: seq<string>, send: SendFn): (rounds: seq<Round>)
    requires forall k :: 0 <= k < |lines| ==> |lines[k]| + 2 < MR.BUFFER_SIZE
    ensures |rounds| == |lines|
  {
    if |lines| == 0 then []
    else
      var wire := MS.FormatMessage(lines[0]);
      [Exchange(MR.RawRecv(|wire|, wire), send)] + Exchanges(lines[1..], send)
  }

  /** The echo replies to `lines`, in order. */
  function Echoes(client: Socket, lines: seq<string>): (effects: seq<Effect>)
    ensures |effects| == |lines|
    ensures forall k :: 0 <= k < |lines| ==>
      effects[k] == Sent(Packet(client, MM.ECHO_PREFIX + MS.FormatMessage(lines[k])))
  {
    if |lines| == 0 then []
    else [Sent(Packet(client, MM.ECHO_PREFIX + MS.FormatMessage(lines[0])))] + Echoes(client, lines[1..])
  }

  /** The echo promise: when a client sends ordinary lines (short enough for
      the buffer, no NUL, none of them "quit") and every send succeeds, the
      server echoes each line, in order, as "Echo: " + the framed line, and
      a later stop ends the session with SUCCESS. */
  lemma {:induction false} EchoesEveryLine(s: Server, h: MM.Handler, lines: seq<string>, send: SendFn)
    requires s.running
    requires forall k :: 0 <= k < |lines| ==>
      |lines[k]| + 2 < MR.BUFFER_SIZE && '\0' !in lines[k] && lines[k] != MR.QUIT_COMMAND
    requires send(h.socket) > SOCKET_ERROR
    ensures var r := Serve(s, h, Exchanges(lines, send) + [StopRequested]);
      r.result == Some(SUCCESS) && r.effects == Echoes(h.socket, lines)
    decreases |lines|
  {
    var rounds := Exchanges(lines, send) + [StopRequested];
    if |lines| == 0 {
      assert rounds == [StopRequested];
    } else {
      var wire := MS.FormatMessage(lines[0]);
      var call := MR.RawRecv(|wire|, wire);
      assert rounds[0] == Exchange(call, send);
      assert rounds[1..] == Exchanges(lines[1..], send) + [StopRequested];
      MM.EchoReturnsTheLine(h, lines[0], send);
      MR.ReceiveFramedLine(MR.Receiver(h.socket, h.lastMessage), lines[0]);
      var rec := MM.ReceiveMessage(h, call);
      assert rec.result == MR.SUCCESS;
      EchoesEveryLine(s, rec.handler, lines[1..], send);
    }
  }

  /** A client that sends "quit" gets the goodbye line and the session ends
      with CLIENT_HANDLED, even when that send fails. */
  lemma QuitGetsGoodbye(s: Server, h: MM.Handler, send: SendFn, rest: seq<Round>)
    requires s.running
    ensures var wire := MS.FormatMessage(MR.QUIT_COMMAND);
      var r := Serve(s, h, [Exchange(MR.RawRecv(|wire|, wire), send)] + rest);
      r.result == Some(CLIENT_HANDLED)
      && r.effects == [Sent(Packet(h.socket, MS.FormatMessage("Goodbye!")))]
  {
    MR.ReceiveFramedLine(MR.Receiver(h.socket, h.lastMessage), MR.QUIT_COMMAND);
  }

  /** A failed echo send ends the session with CLIENT_ERROR after that one
      attempt. */
  lemma FailedEchoEndsSession(s: Server, h: MM.Handler, call: MR.RecvCall, send: SendFn, rest: seq<Round>)
    requires s.running
    requires MM.ReceiveMessage(h, call).result == MR.SUCCESS
    requires send(h.socket) <= SOCKET_ERROR
    ensures var r := Serve(s, h, [Exchange(call, send)] + rest);
      r.result == Some(CLIENT_ERROR) && |r.effects| == 1
  {
  }
}

=== FILE: message_manager.dfy ===
/** The echo server's per-client message handler. Its receive path is line
    for line the chat server's reader (same buffer, NUL cut, LF/CR strip and
    quit test), so it reuses that module's definitions; on top it sends the
    echo reply and the goodbye line straight through send(). */
module MessageManager {
  import opened Net
  import MessageReceiver
  import MessageSender

  type Result = MessageReceiver.Result

  const ECHO_PREFIX: string := "Echo: "
  const GOODBYE: string := "Goodbye!\r\n"

  /** The handler of one client socket and the last message it stored. */
  datatype Handler = Handler(socket: Socket, lastMessage: string)

  datatype Handled = Handled(handler: Handler, result: Result)

  /** The outcome of a send and the one packet it handed to send(). */
  datatype Reply = Reply(result: Result, packet: Packet)

  function Create(socket: Socket): (h: Handler)
    ensures h.socket == socket && h.lastMessage == ""
  {
    Handler(socket, "")
  }

  /** One receive: positive bytes are stored cleaned and classified
      CLIENT_QUIT for exactly "quit", SUCCESS otherwise; 0 reports
      CLIENT_DISCONNECTED and a negative value FAIL_RECEIVE, and only the
      positive branch changes the stored message. */
  function ReceiveMessage(h: Handler, call: MessageReceiver.RecvCall): (r: Handled)
    ensures r.handler.socket == h.socket
    ensures call.ret > 0 ==>
      && r.handler.lastMessage == MessageReceiver.CleanMessage(MessageReceiver.UpToNul(call.bytes))
      && (r.result == MessageReceiver.CLIENT_QUIT <==> r.handler.lastMessage == "quit")
      && (r.result == MessageReceiver.SUCCESS <==> r.handler.lastMessage != "quit")
    ensures call.ret == 0 ==> r.result == MessageReceiver.CLIENT_DISCONNECTED && r.handler == h
    ensures call.ret < 0 ==> r.result == MessageReceiver.FAIL_RECEIVE && r.handler == h
  {
    var rec := MessageReceiver.ReceiveMessage(
      MessageReceiver.Receiver(h.socket, h.lastMessage), call);
    Handled(Handler(h.socket, rec.receiver.lastMessage), rec.result)
  }

  /** Sends "Echo: " + the stored message + CR LF to the client. Any send()
      result at or below SOCKET_ERROR is FAIL_SEND. */
  function SendEcho(h: Handler, send: SendFn): (r: Reply)
    ensures r.packet.target == h.socket
    ensures |r.packet.payload| >= |ECHO_PREFIX| && r.packet.payload[..|ECHO_PREFIX|] == ECHO_PREFIX
    ensures |r.packet.payload| == |ECHO_PREFIX| + |h.lastMessage| + 2
    ensures r.packet.payload[|r.packet.payload| - 2..] == MessageSender.NEW_LINE
    ensures MessageReceiver.CleanMessage(r.packet.payload[|ECHO_PREFIX|..]) == h.lastMessage
    ensures r.result == MessageReceiver.FAIL_SEND <==> send(h.socket) <= SOCKET_ERROR
    ensures r.result == MessageReceiver.SUCCESS <==> send(h.socket) > SOCKET_ERROR
  {
    var response := ECHO_PREFIX + h.lastMessage + MessageSender.NEW_LINE;
    assert response[|ECHO_PREFIX|..] == MessageSender.FormatMessage(h.lastMessage);
    MessageReceiver.CleanUndoesFormat(h.lastMessage);
    var result := if send(h.socket) <= SOCKET_ERROR then MessageReceiver.FAIL_SEND
                  else MessageReceiver.SUCCESS;
    Reply(result, Packet(h.socket, response))
  }

  /** Sends "Goodbye!" + CR LF to the client. Only a send() result equal to
      SOCKET_ERROR is FAIL_SEND. */
  function SendGoodbye(h: Handler, send: SendFn): (r: Reply)
    ensures r.packet == Packet(h.socket, MessageSender.FormatMessage("Goodbye!"))
    ensures r.result == MessageReceiver.FAIL_SEND <==> send(h.socket) == SOCKET_ERROR
    ensures r.result == MessageReceiver.SUCCESS <==> send(h.socket) != SOCKET_ERROR
  {
    var result := if send(h.socket) == SOCKET_ERROR then MessageReceiver.FAIL_SEND
                  else MessageReceiver.SUCCESS;
    Reply(result, Packet(h.socket, GOODBYE))
  }

  function GetLastMessage(h: Handler): string {
    h.lastMessage
  }

  /** A framed line from the client comes back as "Echo: " + that line with
      the same framing. */
  lemma EchoReturnsTheLine(h: Handler, message: string, send: SendFn)
    requires |message| + 2 < MessageReceiver.BUFFER_SIZE
    requires '\0' !in message
    ensures
      var wire := MessageSender.FormatMessage(message);
      var r := ReceiveMessage(h, MessageReceiver.RawRecv(|wire|, wire));
      SendEcho(r.handler, send).packet == Packet(h.socket, ECHO_PREFIX + wire)
  {
  }

  /** The two send checks differ: a send() result below SOCKET_ERROR is a
      failure for the echo but a success for the goodbye. */
  lemma SendChecksDiffer(h: Handler, send: SendFn)
    requires send(h.socket) < SOCKET_ERROR
    ensures SendEcho(h, send).result == MessageReceiver.FAIL_SEND
    ensures SendGoodbye(h, send).result == MessageReceiver.SUCCESS
  {
  }
}

=== FILE: message_receiver.dfy ===
/** The line reader: one recv() of at most BUFFER_SIZE - 1 bytes, the text
    up to the first NUL kept as the last message after one trailing LF and
    then one trailing CR are stripped, and the classification of the recv()
    return value. (The class is spelled MessageRecevier in its header and
    MessageReceiver in its implementation; both are this module.) */
module MessageReceiver {
  import opened Net
  import MessageSender

  const BUFFER_SIZE: nat := 1024

  const QUIT_COMMAND: string := "quit"

  datatype Result = SUCCESS | FAIL_RECEIVE | FAIL_SEND | CLIENT_QUIT | CLIENT_DISCONNECTED

  /** What one recv() call reports: its return value and, when that is
      positive, the bytes it wrote into the buffer. */
  datatype RawRecv = RawRecv(ret: int, bytes: string)

  /** recv() is asked for at most BUFFER_SIZE - 1 bytes and writes exactly
      as many as it reports. */
  type RecvCall = c: RawRecv | c.ret < BUFFER_SIZE && (c.ret > 0 ==> |c.bytes| == c.ret)
    witness RawRecv(0, "")

  /** The receiver of one client socket and the last message it stored. */
  datatype Receiver = Receiver(socket: Socket, lastMessage: string)

  datatype Received = Received(receiver: Receiver, result: Result)

  /** The constructor: nothing received yet. */
  function Create(socket: Socket): (rc: Receiver)
    ensures rc.socket == socket && rc.lastMessage == ""
  {
    Receiver(socket, "")
  }

  /** The C string the buffer holds: the bytes before the first NUL. */
  function UpToNul(s: string): (r: string)
    ensures |r| <= |s| && r == s[..|r|]
    ensures '\0' !in r
    ensures |r| < |s| ==> s[|r|] == '\0'
  {
    if |s| == 0 then ""
    else if s[0] == '\0' then ""
    else
      var rest := UpToNul(s[1..]);
      assert s[1..][..|rest|] == rest;
      [s[0]] + rest
  }

  /** Drops one trailing LF, then one trailing CR. */
  function CleanMessage(message: string): (r: string)
    ensures |message| - 2 <= |r| <= |message| && r == message[..|r|]
    ensures var cut := message[|r|..];
      cut == "" || cut == "\n" || cut == "\r" || cut == "\r\n"
    ensures (|message| == 0 || (message[|message| - 1] != '\n' && message[|message| - 1] != '\r'))
      ==> r == message
    ensures |message| > 0 && message[|message| - 1] == '\n' ==> |r| < |message|
    ensures |message| > 0 && message[|message| - 1] == '\r' ==> |r| == |message| - 1
  {
    var m1 := if |message| > 0 && message[|message| - 1] == '\n'
              then message[..|message| - 1] else message;
    if |m1| > 0 && m1[|m1| - 1] == '\r' then m1[..|m1| - 1] else m1
  }

  /** Exact, case-sensitive comparison with "quit". */
  predicate IsQuitCommand(message: string) {
    message == QUIT_COMMAND
  }

  /** One receive: positive bytes are stored (cut at NUL, then cleaned) and
      classified CLIENT_QUIT or SUCCESS; 0 is an orderly disconnect and a
      negative value a failure, neither touching the stored message. */
  function ReceiveMessage(rc: Receiver, call: RecvCall): (r: Received)
    ensures r.receiver.socket == rc.socket
    ensures call.ret > 0 ==>
      && r.receiver.lastMessage == CleanMessage(UpToNul(call.bytes))
      && |r.receiver.lastMessage| < BUFFER_SIZE
      && (r.result == CLIENT_QUIT <==> IsQuitCommand(r.receiver.lastMessage))
      && (r.result == SUCCESS <==> !IsQuitCommand(r.receiver.lastMessage))
    ensures call.ret == 0 ==> r == Received(rc, CLIENT_DISCONNECTED)
    ensures call.ret < 0 ==> r == Received(rc, FAIL_RECEIVE)
    ensures r.result in {SUCCESS, CLIENT_QUIT, CLIENT_DISCONNECTED, FAIL_RECEIVE}
  {
    if call.ret > 0 then
      var stored := CleanMessage(UpToNul(call.bytes));
      var rc' := Receiver(rc.socket, stored);
      if IsQuitCommand(stored) then Received(rc', CLIENT_QUIT) else Received(rc', SUCCESS)
    else if call.ret == 0 then Received(rc, CLIENT_DISCONNECTED)
    else Received(rc, FAIL_RECEIVE)
  }

  function GetLastMessage(rc: Receiver): string {
    rc.lastMessage
  }

  /** The cleaned text of the most recent positive receive in `calls`, or
      `initial` if there is none. */
  function LatestStored(initial: string, calls: seq<RecvCall>): string {
    if |calls| == 0 then initial
    else if calls[|calls| - 1].ret > 0 then CleanMessage(UpToNul(calls[|calls| - 1].bytes))
    else LatestStored(initial, calls[..|calls| - 1])
  }

  /** Feeds a sequence of recv() outcomes to one receiver. */
  function ReceiveAll(rc: Receiver, calls: seq<RecvCall>): Receiver {
    if |calls| == 0 then rc
    else ReceiveMessage(ReceiveAll(rc, calls[..|calls| - 1]), calls[|calls| - 1]).receiver
  }

  /** getLastMessage returns what the most recent successful receive stored,
      and "" for a fresh receiver that has had none. */
  lemma {:induction false} LastMessageIsLatest(socket: Socket, calls: seq<RecvCall>)
    ensures GetLastMessage(ReceiveAll(Create(socket), calls)) == LatestStored("", calls)
    ensures ReceiveAll(Create(socket), calls).socket == socket
  {
    if |calls| > 0 {
      LastMessageIsLatest(socket, calls[..|calls| - 1]);
    }
  }

  /** A receive classified SUCCESS never carries "quit": the receiver has
      already turned it into CLIENT_QUIT. */
  lemma SuccessIsNeverQuit(rc: Receiver, call: RecvCall)
    ensures ReceiveMessage(rc, call).result == SUCCESS ==>
      !IsQuitCommand(GetLastMessage(ReceiveMessage(rc, call).receiver))
  {
  }

  /** Each of the three line endings reduces "x" to "x". */
  lemma CleanLineEndings()
    ensures CleanMessage("x\r\n") == "x"
    ensures CleanMessage("x\n") == "x"
    ensures CleanMessage("x\r") == "x"
    ensures CleanMessage("x") == "x"
  {
  }

  /** Only one CR LF pair is removed, and a CR before an LF is kept when the
      LF is not last: "x\n\r" loses only its CR. */
  lemma CleanStripsOnlyOnePair()
    ensures CleanMessage("x\r\n\r\n") == "x\r\n"
    ensures CleanMessage("x\n\r") == "x\n"
  {
  }

  /** The reader undoes the sender's framing: cleaning a formatted line gives
      the line back. */
  lemma CleanUndoesFormat(message: string)
    ensures CleanMessage(MessageSender.FormatMessage(message)) == message
  {
  }

  /** A line sent by a peer with the sender's framing, short enough for the
      buffer and free of NUL, arrives intact and is classified by the quit
      test alone. */
  lemma ReceiveFramedLine(rc: Receiver, message: string)
    requires |message| + 2 < BUFFER_SIZE
    requires '\0' !in message
    ensures
      var wire := MessageSender.FormatMessage(message);
      var r := ReceiveMessage(rc, RawRecv(|wire|, wire));
      && GetLastMessage(r.receiver) == message
      && (r.result == (if message == QUIT_COMMAND then CLIENT_QUIT else SUCCESS))
  {
    NoNulKeepsAll(MessageSender.FormatMessage(message));
    CleanUndoesFormat(message);
  }

  /** A positive read of `wire` with no NUL stores the cleaned wire and is
      classified by the quit test on it. */
  lemma ReceiveLine(rc: Receiver, wire: string)
    requires 0 < |wire| < BUFFER_SIZE
    requires '\0' !in wire
    ensures ReceiveMessage(rc, RawRecv(|wire|, wire)).result ==
      (if CleanMessage(wire) == QUIT_COMMAND then CLIENT_QUIT else SUCCESS)
  {
    NoNulKeepsAll(wire);
  }

  /** "quit" quits whichever line ending, if any, follows it. */
  lemma QuitWithAnyEnding(rc: Receiver)
    ensures var w := "quit"; ReceiveMessage(rc, RawRecv(|w|, w)).result == CLIENT_QUIT
    ensures var w := "quit\n"; ReceiveMessage(rc, RawRecv(|w|, w)).result == CLIENT_QUIT
    ensures var w := "quit\r\n"; ReceiveMessage(rc, RawRecv(|w|, w)).result == CLIENT_QUIT
  {
    ReceiveLine(rc, "quit");
    ReceiveLine(rc, "quit\n");
    ReceiveLine(rc, "quit\r\n");
  }

  /** The quit test is exact and case-sensitive: "QUIT", "quit " and
      " quit" are ordinary lines. */
  lemma QuitIsExact(rc: Receiver)
    ensures var w := "QUIT\r\n"; ReceiveMessage(rc, RawRecv(|w|, w)).result == SUCCESS
    ensures var w := "quit \r\n"; ReceiveMessage(rc, RawRecv(|w|, w)).result == SUCCESS
    ensures var w := " quit\r\n"; ReceiveMessage(rc, RawRecv(|w|, w)).result == SUCCESS
  {
    ReceiveLine(rc, "QUIT\r\n");
    ReceiveLine(rc, "quit \r\n");
    ReceiveLine(rc, " quit\r\n");
  }

  lemma NoNulKeepsAll(s: string)
    requires '\0' !in s
    ensures UpToNul(s) == s
  {
  }
}

=== FILE: message_sender.dfy ===
/** The fan-out layer: unicast, broadcast and multicast-except-one of a text
    line, each delivery terminated by CR LF, and the SUCCESS / PARTIAL_FAIL /
    TOTAL_FAIL accounting of a fan-out. What send() returns is an input. */
module MessageSender {
  import opened Net

  const NEW_LINE: string := "\r\n"

  datatype Result = SUCCESS | PARTIAL_FAIL | TOTAL_FAIL

  /** The classification of a fan-out and the packets it handed to send(). */
  datatype Dispatch = Dispatch(result: Result, sent: seq<Packet>)

  /** Whether one sendMessage succeeds and which packets it attempted. */
  datatype Delivery = Delivery(ok: bool, sent: seq<Packet>)

  /** The bytes put on the wire for a message: the text and then CR LF. */
  function FormatMessage(message: string): (wire: string)
    ensures |wire| == |message| + 2
    ensures wire[..|message|] == message
    ensures wire[|message|..] == NEW_LINE
  {
    message + NEW_LINE
  }

  /** sendMessage succeeds for this target: it is a real socket and send()
      does not report SOCKET_ERROR. */
  predicate Delivers(target: Socket, send: SendFn) {
    target != INVALID_SOCKET && send(target) != SOCKET_ERROR
  }

  /** One send of already formatted bytes; INVALID_SOCKET is refused before
      send() is called. */
  function SendMessage(formatted: string, target: Socket, send: SendFn): (d: Delivery)
    ensures d.ok <==> Delivers(target, send)
    ensures target == INVALID_SOCKET ==> d.sent == []
    ensures target != INVALID_SOCKET ==> d.sent == [Packet(target, formatted)]
  {
    if target == INVALID_SOCKET then Delivery(false, [])
    else Delivery(send(target) != SOCKET_ERROR, [Packet(target, formatted)])
  }

  /** The number of targets a fan-out reaches. */
  function SuccessCount(targets: seq<Socket>, send: SendFn): (n: nat)
    ensures n <= |targets|
    ensures n == |targets| <==> forall k :: 0 <= k < |targets| ==> Delivers(targets[k], send)
    ensures n == 0 <==> forall k :: 0 <= k < |targets| ==> !Delivers(targets[k], send)
  {
    if |targets| == 0 then 0
    else
      var init := targets[..|targets| - 1];
      var n := SuccessCount(init, send);
      assert forall k :: 0 <= k < |init| ==> init[k] == targets[k];
      n + (if Delivers(targets[|targets| - 1], send) then 1 else 0)
  }

  /** The packets a fan-out over `targets` hands to send(), in order: one per
      real socket, whatever happened to the earlier ones. */
  function Attempts(formatted: string, targets: seq<Socket>, send: SendFn): (ps: seq<Packet>)
    ensures forall p :: p in ps <==>
      p.payload == formatted && p.target in targets && p.target != INVALID_SOCKET
  {
    if |targets| == 0 then []
    else
      var init := targets[..|targets| - 1];
      assert targets == init + [targets[|targets| - 1]];
      Attempts(formatted, init, send)
        + SendMessage(formatted, targets[|targets| - 1], send).sent
  }

  /** A fan-out hands send() exactly one packet per real socket of the list,
      in list order, whatever happened to the earlier sends. */
  lemma {:induction false} AttemptsInOrder(formatted: string, targets: seq<Socket>, send: SendFn)
    ensures var ps := Attempts(formatted, targets, send);
      && |ps| == RealCount(targets)
      && forall k :: 0 <= k < |ps| ==> ps[k] == Packet(RealSockets(targets)[k], formatted)
  {
    if |targets| > 0 {
      var init := targets[..|targets| - 1];
      AttemptsInOrder(formatted, init, send);
      assert targets == init + [targets[|targets| - 1]];
    }
  }

  /** The entries of `sockets` that are not `except`, in order. */
  function Targets(sockets: seq<Socket>, except: Socket): (ts: seq<Socket>)
    ensures |ts| <= |sockets|
    ensures forall s :: s in ts <==> s in sockets && s != except
    ensures except !in sockets ==> ts == sockets
  {
    if |sockets| == 0 then []
    else
      var init := sockets[..|sockets| - 1];
      var last := sockets[|sockets| - 1];
      assert sockets == init + [last];
      Targets(init, except) + (if last != except then [last] else [])
  }

  /** Dropping `except` distributes over concatenation, so the targets keep
      the relative order they have in the list. */
  lemma {:induction false} TargetsAppend(a: seq<Socket>, b: seq<Socket>, except: Socket)
    ensures Targets(a + b, except) == Targets(a, except) + Targets(b, except)
    decreases |b|
  {
    if |b| == 0 {
      assert a + b == a;
    } else {
      var init := b[..|b| - 1];
      assert (a + b)[..|a + b| - 1] == a + init;
      assert (a + b)[|a + b| - 1] == b[|b| - 1];
      TargetsAppend(a, init, except);
    }
  }

  /** Classifies a fan-out by how many of its targets were reached. */
  function Classify(successes: nat, targets: nat): Result
    requires successes <= targets
  {
    if successes == targets then SUCCESS
    else if successes > 0 then PARTIAL_FAIL
    else TOTAL_FAIL
  }

  /** Sends a message to every socket of the list. An empty list is a total
      failure; otherwise every socket is attempted and the call succeeds iff
      all deliveries do, fails totally iff none does, and is partial else. */
  function Broadcast(message: string, sockets: seq<Socket>, send: SendFn): (d: Dispatch)
    ensures |sockets| == 0 ==> d == Dispatch(TOTAL_FAIL, [])
    ensures |sockets| > 0 ==>
      (d.result == SUCCESS <==> forall k :: 0 <= k < |sockets| ==> Delivers(sockets[k], send))
    ensures d.result == TOTAL_FAIL <==>
      forall k :: 0 <= k < |sockets| ==> !Delivers(sockets[k], send)
    ensures d.result == PARTIAL_FAIL <==>
      && (exists k :: 0 <= k < |sockets| && Delivers(sockets[k], send))
      && (exists k :: 0 <= k < |sockets| && !Delivers(sockets[k], send))
    ensures forall p :: p in d.sent <==>
      p.payload == FormatMessage(message) && p.target in sockets && p.target != INVALID_SOCKET
  {
    if |sockets| == 0 then Dispatch(TOTAL_FAIL, [])
    else
      var formatted := FormatMessage(message);
      Dispatch(Classify(SuccessCount(sockets, send), |sockets|),
               Attempts(formatted, sockets, send))
  }

  /** Sends a message to every entry of the list except those equal to
      `except`. An empty list is a total failure; a non-empty list with no
      target left is a vacuous success; otherwise the classification is
      against the targets that remain. */
  function Multicast(message: string, sockets: seq<Socket>, except: Socket, send: SendFn): (d: Dispatch)
    ensures |sockets| == 0 ==> d == Dispatch(TOTAL_FAIL, [])
    ensures forall p :: p in d.sent ==> p.target != except
    ensures forall p :: p in d.sent <==>
      p.payload == FormatMessage(message) && p.target in sockets
      && p.target != except && p.target != INVALID_SOCKET
    ensures |sockets| > 0 ==>
      (d.result == SUCCESS <==>
        forall k :: 0 <= k < |sockets| && sockets[k] != except ==> Delivers(sockets[k], send))
    ensures |sockets| > 0 ==>
      (d.result == TOTAL_FAIL <==>
        && (exists k :: 0 <= k < |sockets| && sockets[k] != except)
        && forall k :: 0 <= k < |sockets| && sockets[k] != except ==> !Delivers(sockets[k], send))
    ensures d.result == PARTIAL_FAIL <==>
      && (exists k :: 0 <= k < |sockets| && sockets[k] != except && Delivers(sockets[k], send))
      && (exists k :: 0 <= k < |sockets| && sockets[k] != except && !Delivers(sockets[k], send))
  {
    if |sockets| == 0 then Dispatch(TOTAL_FAIL, [])
    else
      var formatted := FormatMessage(message);
      var targets := Targets(sockets, except);
      var sent := Attempts(formatted, targets, send);
      var successes := SuccessCount(targets, send);
      assert forall k :: 0 <= k < |sockets| && sockets[k] != except ==> sockets[k] in targets;
      assert forall k :: 0 <= k < |targets| ==> targets[k] in sockets && targets[k] != except;
      if |targets| == 0 then Dispatch(SUCCESS, sent)
      else Dispatch(Classify(successes, |targets|), sent)
  }

  /** Sends a message to one socket; INVALID_SOCKET is refused without any
      send. */
  function Unicast(message: string, target: Socket, send: SendFn): (d: Delivery)
    ensures d.ok <==> Delivers(target, send)
    ensures target == INVALID_SOCKET ==> d.sent == []
    ensures target != INVALID_SOCKET ==> d.sent == [Packet(target, FormatMessage(message))]
  {
    if target == INVALID_SOCKET then Delivery(false, [])
    else SendMessage(FormatMessage(message), target, send)
  }

  /** A broadcast hands send() one packet per real socket of the list, in
      list order. */
  lemma BroadcastInOrder(message: string, sockets: seq<Socket>, send: SendFn)
    ensures var d := Broadcast(message, sockets, send);
      && |d.sent| == RealCount(sockets)
      && forall k :: 0 <= k < |d.sent| ==>
           d.sent[k] == Packet(RealSockets(sockets)[k], FormatMessage(message))
  {
    AttemptsInOrder(FormatMessage(message), sockets, send);
  }

  /** A multicast hands send() one packet per real target, in list order;
      when every listed socket is real, that is one per entry other than
      `except`. */
  lemma MulticastInOrder(message: string, sockets: seq<Socket>, except: Socket, send: SendFn)
    ensures var d := Multicast(message, sockets, except, send);
      && |d.sent| == RealCount(Targets(sockets, except))
      && forall k :: 0 <= k < |d.sent| ==>
           d.sent[k] == Packet(RealSockets(Targets(sockets, except))[k], FormatMessage(message))
    ensures (forall k :: 0 <= k < |sockets| ==> sockets[k] != INVALID_SOCKET) ==>
      var d := Multicast(message, sockets, except, send);
      && |d.sent| == |Targets(sockets, except)|
      && forall k :: 0 <= k < |d.sent| ==>
           d.sent[k] == Packet(Targets(sockets, except)[k], FormatMessage(message))
  {
    var targets := Targets(sockets, except);
    AttemptsInOrder(FormatMessage(message), targets, send);
    if forall k :: 0 <= k < |sockets| ==> sockets[k] != INVALID_SOCKET {
      assert forall k :: 0 <= k < |targets| ==> targets[k] in sockets;
      assert RealSockets(targets) == targets;
    }
  }

  /** Excluding a socket that is not in the list changes nothing: multicast
      then behaves exactly as broadcast. */
  lemma MulticastWithoutExclusionIsBroadcast(message: string, sockets: seq<Socket>,
                                             except: Socket, send: SendFn)
    requires except !in sockets
    ensures Multicast(message, sockets, except, send) == Broadcast(message, sockets, send)
  {
  }
}

=== FILE: multi_server.dfy ===
/** The select-based chat server. One pass of its loop rebuilds the watch
    set from the listening socket and the live client sockets, polls once,
    admits a pending connection (or turns it away when all slots are taken),
    reads from every ready client, relays its line to the other clients and
    evicts it, with a leave announcement, when the read does not succeed.
    Every Winsock call is an input (`Env`), every send and close an output
    (`Effect`), and the loop consumes a finite list of rounds. */
module MultiServer {
  import opened Net
  import CM = ClientManager
  import SM = SelectManager
  import MS = MessageSender
  import MR = MessageReceiver

  datatype Result = SUCCESS | FAIL_START | FAIL_LOOP | SERVER_STOPPED

  /** The listening socket, the running flag and the two managers. */
  datatype Server = Server(listener: Socket, running: bool, clients: CM.Table, selector: SM.FdSets)

  /** What the platform does during one loop pass: the select() outcome, the
      socket accept() returns (INVALID_SOCKET on failure), what recv()
      reports for the client in each slot, and what send() returns. */
  datatype Env = Env(select: SM.SelectOutcome, accepted: Socket,
                     recv: int -> MR.RecvCall, send: SendFn)

  datatype Started = Started(server: Server, result: Result)

  /** A server state with the effects that led to it. */
  datatype Step = Step(server: Server, effects: seq<Effect>)

  datatype Connection = Connection(server: Server, ok: bool, effects: seq<Effect>)

  datatype Message = Message(keep: bool, effects: seq<Effect>)

  datatype Status = Continue | Failed

  datatype Iteration = Iteration(server: Server, status: Status, effects: seq<Effect>)

  /** One turn of the outer loop: either someone calls stop() before the
      running flag is next checked, or the loop runs one pass. */
  datatype Round = StopRequested | Poll(env: Env)

  datatype Run = Run(server: Server, result: Option<Result>, effects: seq<Effect>)

  const REJECT_MESSAGE: string := "서버가 가득 찼습니다. 나중에 다시 시도해주세요."
  const GOODBYE_MESSAGE: string := "안녕히 가세요!"

  function WelcomeMessage(index: nat, connected: nat): string {
    "=== 채팅 서버에 오신 것을 환영합니다! ==="
    + "\n당신은 클라이언트" + Decimal(index) + "입니다."
    + "\n현재 접속자 수: " + Decimal(connected) + "명"
    + "\n'quit'를 입력하면 종료됩니다."
    + "\n=========================================="
  }

  function JoinMessage(index: nat): string {
    "[시스템] 클라이언트" + Decimal(index) + "님이 채팅방에 참여했습니다."
  }

  function LeaveMessage(index: nat): string {
    "[시스템] 클라이언트" + Decimal(index) + "님이 채팅방을 떠났습니다."
  }

  function RelayMessage(index: nat, message: string): string {
    "[클라이언트" + Decimal(index) + "]: " + message
  }

  ghost predicate Valid(s: Server) {
    CM.Valid(s.clients)
  }

  /** The live client sockets, as getAllSockets with capacity MAX_CLIENTS
      returns them. */
  function AllSockets(s: Server): (live: seq<Socket>)
    requires Valid(s)
    ensures |live| <= CM.MAX_CLIENTS
    ensures live == CM.Take(CM.LiveSockets(s.clients.slots), CM.MAX_CLIENTS)
  {
    CM.LiveSockets(s.clients.slots)
  }

  /** The constructor: not running, no listening socket yet, an empty slot
      table and empty fd_sets. */
  function Create(): (s: Server)
    ensures Valid(s) && !s.running && s.listener == INVALID_SOCKET
    ensures AllSockets(s) == []
  {
    Server(INVALID_SOCKET, false, CM.Init(), SM.Create())
  }

  /** Creates, binds and listens; the first failing step makes the call
      return FAIL_START with the running flag as it was. Only full success
      sets the flag. The created handle is kept whatever happens next. */
  function StartServer(s: Server, tr: Transport): (r: Started)
    ensures r.result == SUCCESS <==> tr.created != INVALID_SOCKET && tr.bindOk && tr.listenOk
    ensures r.result != SUCCESS ==> r.result == FAIL_START && r.server.running == s.running
    ensures r.result == SUCCESS ==> r.server.running
    ensures r.server.listener == tr.created
    ensures r.server.clients == s.clients && r.server.selector == s.selector
  {
    var s1 := s.(listener := tr.created);
    if tr.created == INVALID_SOCKET then Started(s1, FAIL_START)
    else if !tr.bindOk then Started(s1, FAIL_START)
    else if !tr.listenOk then Started(s1, FAIL_START)
    else Started(s1.(running := true), SUCCESS)
  }

  /** Clears the running flag if it is set; nothing else changes. */
  function Stop(s: Server): (r: Server)
    ensures !r.running
    ensures r.listener == s.listener && r.clients == s.clients && r.selector == s.selector
  {
    if s.running then s.(running := false) else s
  }

  /** Stopping twice is stopping once, and stopping a stopped server does
      nothing. */
  lemma StopIdempotent(s: Server)
    ensures Stop(Stop(s)) == Stop(s)
    ensures !s.running ==> Stop(s) == s
  {
  }

  /** The watch set of one pass: reset, the listening socket, then every
      live client socket. */
  function WatchSet(s: Server): (m: SM.FdSets)
    requires Valid(s)
    ensures forall x :: x in m.origin <==>
      (x == s.listener && x != INVALID_SOCKET) || x in AllSockets(s)
    ensures m.count == (if s.listener != INVALID_SOCKET then 1 else 0) + |AllSockets(s)|
    ensures m.copy == s.selector.copy
  {
    var m0 := SM.SetupFdSet(s.selector);
    var m1 := SM.AddSocket(m0, s.listener).sets;
    SM.AddAll(m1, AllSockets(s))
  }

  /** With a listening socket the watch set is never empty, so the poll
      never short-circuits with NO_SOCKETS. */
  lemma ListenerPreventsNoSockets(s: Server, outcome: SM.SelectOutcome)
    requires Valid(s) && s.listener != INVALID_SOCKET
    ensures SM.ExecuteSelect(WatchSet(s), outcome).result != SM.NO_SOCKETS
  {
  }

  /** Sends the welcome notice to the client in slot `index`; it quotes
      the slot number and the number of connected clients. */
  function SendWelcomeMessage(s: Server, index: nat, send: SendFn): (effects: seq<Effect>)
    requires Valid(s)
    ensures var sock := CM.GetClientSocket(s.clients, index);
      && (sock == INVALID_SOCKET ==> effects == [])
      && (sock != INVALID_SOCKET ==> effects == [Sent(Packet(sock,
            MS.FormatMessage(WelcomeMessage(index, CM.GetConnectedClientCount(s.clients)))))])
  {
    var sock := CM.GetClientSocket(s.clients, index);
    if sock == INVALID_SOCKET then []
    else
      var welcome := WelcomeMessage(index, CM.GetConnectedClientCount(s.clients));
      AsEffects(MS.Unicast(welcome, sock, send).sent)
  }

  /** Tells every live client except the one in slot `index` that it joined;
      exclusion is by that client's socket handle. */
  function AnnounceJoin(s: Server, index: nat, send: SendFn): (effects: seq<Effect>)
    requires Valid(s)
    ensures forall x :: Closed(x) !in effects
    ensures forall p :: Sent(p) in effects <==>
      && p.target in AllSockets(s)
      && p.target != CM.GetClientSocket(s.clients, index)
      && p.payload == MS.FormatMessage(JoinMessage(index))
  {
    var newSocket := CM.GetClientSocket(s.clients, index);
    AsEffects(MS.Multicast(JoinMessage(index), AllSockets(s), newSocket, send).sent)
  }

  /** The join notice goes out once per other live client, in slot order. */
  lemma AnnounceJoinInOrder(s: Server, index: nat, send: SendFn)
    requires Valid(s)
    ensures var effects := AnnounceJoin(s, index, send);
      var others := MS.Targets(AllSockets(s), CM.GetClientSocket(s.clients, index));
      && |effects| == |others|
      && forall k :: 0 <= k < |effects| ==>
           effects[k] == Sent(Packet(others[k], MS.FormatMessage(JoinMessage(index))))
  {
    MS.MulticastInOrder(JoinMessage(index), AllSockets(s), CM.GetClientSocket(s.clients, index), send);
  }

  /** Tells every live client, the one in slot `index` included, that it
      left. */
  function AnnounceLeave(s: Server, index: nat, send: SendFn): (effects: seq<Effect>)
    requires Valid(s)
    ensures forall x :: Closed(x) !in effects
    ensures forall p :: Sent(p) in effects <==>
      p.target in AllSockets(s) && p.payload == MS.FormatMessage(LeaveMessage(index))
  {
    AsEffects(MS.Broadcast(LeaveMessage(index), AllSockets(s), send).sent)
  }

  /** The leave notice goes out once per live client, in slot order. */
  lemma AnnounceLeaveInOrder(s: Server, index: nat, send: SendFn)
    requires Valid(s)
    ensures var effects := AnnounceLeave(s, index, send);
      && |effects| == |AllSockets(s)|
      && forall k :: 0 <= k < |effects| ==>
           effects[k] == Sent(Packet(AllSockets(s)[k], MS.FormatMessage(LeaveMessage(index))))
  {
    MS.BroadcastInOrder(LeaveMessage(index), AllSockets(s), send);
  }

  /** Registering a socket keeps every socket that was already live. */
  lemma AddKeepsLive(s: Server, accepted: Socket)
    requires Valid(s)
    ensures var added := CM.AddClient(s.clients, accepted);
      forall x :: x in AllSockets(s) ==> x in AllSockets(s.(clients := added.table))
  {
  }

  /** Registering a socket leaves every occupied slot as it was: the new
      client only ever takes an empty one. */
  lemma AddKeepsSlots(s: Server, accepted: Socket)
    requires Valid(s)
    ensures var added := CM.AddClient(s.clients, accepted);
      forall j :: 0 <= j < CM.MAX_CLIENTS && s.clients.slots[j] != INVALID_SOCKET ==>
        added.table.slots[j] == s.clients.slots[j]
  {
  }

  /** The admitting branch of handleNewConnection: the socket takes the
      lowest free slot, its client is welcomed with the new head count, and
      every other live client is told of the join. */
  function Admit(s: Server, accepted: Socket, send: SendFn): (r: Connection)
    requires Valid(s) && accepted != INVALID_SOCKET && !CM.Full(s.clients)
    ensures Valid(r.server) && r.ok
    ensures var added := CM.AddClient(s.clients, accepted);
      && r.server == s.(clients := added.table)
      && 0 <= added.index < CM.MAX_CLIENTS
      && |r.effects| > 0
      && r.effects[0] == Sent(Packet(accepted,
           MS.FormatMessage(WelcomeMessage(added.index, s.clients.count + 1))))
      && (forall x :: Closed(x) !in r.effects)
      && (forall p :: Sent(p) in r.effects[1..] ==> p.target != accepted)
      && (forall x :: x in AllSockets(s) && x != accepted ==>
            Sent(Packet(x, MS.FormatMessage(JoinMessage(added.index)))) in r.effects)
  {
    var added := CM.AddClient(s.clients, accepted);
    var index: nat := added.index;
    var s1 := s.(clients := added.table);
    assert CM.GetClientSocket(s1.clients, index) == accepted;
    var welcome := SendWelcomeMessage(s1, index, send);
    var join := AnnounceJoin(s1, index, send);
    var effects := welcome + join;
    assert effects[1..] == join;
    AddKeepsLive(s, accepted);
    Connection(s1, true, effects)
  }

  /** Handles a ready listening socket: accept, then register. A failed
      accept does nothing. A socket the full table refuses gets one notice
      and is closed, the table unchanged. An admitted socket is welcomed and
      announced to the others (`Admit`). */
  function HandleNewConnection(s: Server, accepted: Socket, send: SendFn): (r: Connection)
    requires Valid(s)
    ensures Valid(r.server)
    ensures r.server.listener == s.listener && r.server.running == s.running
    ensures r.server.selector == s.selector
    ensures r.ok <==> accepted != INVALID_SOCKET && !CM.Full(s.clients)
    ensures accepted == INVALID_SOCKET ==> r == Connection(s, false, [])
    ensures accepted != INVALID_SOCKET && CM.Full(s.clients) ==>
      && r.server == s
      && r.effects == [Sent(Packet(accepted, MS.FormatMessage(REJECT_MESSAGE))), Closed(accepted)]
    ensures r.ok ==> r == Admit(s, accepted, send)
    ensures forall j :: 0 <= j < CM.MAX_CLIENTS && s.clients.slots[j] != INVALID_SOCKET ==>
      r.server.clients.slots[j] == s.clients.slots[j]
  {
    if accepted == INVALID_SOCKET then Connection(s, false, [])
    else if CM.AddClient(s.clients, accepted).index == -1 then
      var notice := MS.Unicast(REJECT_MESSAGE, accepted, send);
      Connection(s, false, AsEffects(notice.sent) + [Closed(accepted)])
    else
      AddKeepsSlots(s, accepted);
      Admit(s, accepted, send)
  }

  /** Reads once from the client in slot `index` with a fresh receiver and
      says whether to keep the connection. A line is relayed, prefixed with
      the slot number, to every live client but the sender, and the
      connection is kept; every other receive result drops it. */
  function HandleClientMessage(s: Server, index: nat, call: MR.RecvCall, send: SendFn): (r: Message)
    requires Valid(s)
    ensures var sock := CM.GetClientSocket(s.clients, index);
      var rec := MR.ReceiveMessage(MR.Create(sock), call);
      && (r.keep <==> sock != INVALID_SOCKET && rec.result == MR.SUCCESS)
      && (forall x :: Closed(x) !in r.effects)
      && (!r.keep ==> r.effects == [])
      && (r.keep ==> forall p :: Sent(p) in r.effects <==>
            && p.target in AllSockets(s) && p.target != sock
            && p.payload == MS.FormatMessage(RelayMessage(index, MR.GetLastMessage(rec.receiver))))
  {
    var sock := CM.GetClientSocket(s.clients, index);
    if sock == INVALID_SOCKET then Message(false, [])
    else
      var rec := MR.ReceiveMessage(MR.Create(sock), call);
      match rec.result
      case SUCCESS =>
        var message := MR.GetLastMessage(rec.receiver);
        if MR.IsQuitCommand(message) then
          // Unreachable: the receiver reports "quit" as CLIENT_QUIT.
          Message(false, AsEffects(MS.Unicast(GOODBYE_MESSAGE, sock, send).sent))
        else
          var relay := RelayMessage(index, message);
          Message(true, AsEffects(MS.Multicast(relay, AllSockets(s), sock, send).sent))
      case CLIENT_DISCONNECTED => Message(false, [])
      case FAIL_RECEIVE => Message(false, [])
      case _ => Message(false, [])
  }

  /** Drops the client in slot `index`: the leave notice goes to every live
      client (the leaving one is still registered), then the slot is freed
      and its socket closed. */
  function Evict(s: Server, index: nat, send: SendFn): (r: Step)
    requires Valid(s) && index < CM.MAX_CLIENTS
    requires s.clients.slots[index] != INVALID_SOCKET
    ensures Valid(r.server)
    ensures r.server == s.(clients := CM.RemoveClient(s.clients, index).table)
    ensures r.server.clients.slots[index] == INVALID_SOCKET
    ensures r.server.clients.count == s.clients.count - 1
    ensures |r.effects| > 0 && r.effects[|r.effects| - 1] == Closed(s.clients.slots[index])
    ensures forall x :: Closed(x) in r.effects ==> x == s.clients.slots[index]
    ensures forall x :: x in AllSockets(s) ==>
      Sent(Packet(x, MS.FormatMessage(LeaveMessage(index)))) in r.effects
  {
    var sock := s.clients.slots[index];
    var leave := AnnounceLeave(s, index, send);
    var removed := CM.RemoveClient(s.clients, index);
    var effects := leave + [Closed(sock)];
    assert forall e :: e in leave ==> e in effects;
    Step(s.(clients := removed.table), effects)
  }

  /** Whether the client pass drops the client on `sock`: it is a real
      socket that select() marked ready, and a fresh receiver's read of it
      is not SUCCESS ("quit" included). */
  predicate Drops(selector: SM.FdSets, sock: Socket, call: MR.RecvCall) {
    && sock != INVALID_SOCKET
    && SM.IsSocketReady(selector, sock)
    && MR.ReceiveMessage(MR.Create(sock), call).result != MR.SUCCESS
  }

  /** Whether the client pass relays a line from the client on `sock`: it is
      a real socket that select() marked ready, and a fresh receiver's read
      of it is SUCCESS. */
  predicate Relays(selector: SM.FdSets, sock: Socket, call: MR.RecvCall) {
    && sock != INVALID_SOCKET
    && SM.IsSocketReady(selector, sock)
    && MR.ReceiveMessage(MR.Create(sock), call).result == MR.SUCCESS
  }

  /** The text a fresh receiver on `sock` stores from `call`. */
  function ReadLine(sock: Socket, call: MR.RecvCall): string {
    MR.GetLastMessage(MR.ReceiveMessage(MR.Create(sock), call).receiver)
  }

  /** One slot of the client pass. A client that is connected and ready is
      read once; a line is relayed to every other live client and the client
      kept; any other read drops it, announcing the leave to every live
      client, then freeing the slot and closing the socket. A slot that is
      empty or not ready is left alone. */
  function ServeSlot(s: Server, index: nat, env: Env): (r: Step)
    requires Valid(s) && index < CM.MAX_CLIENTS
    ensures Valid(r.server)
    ensures r.server.listener == s.listener && r.server.running == s.running
    ensures r.server.selector == s.selector
    ensures var sock := s.clients.slots[index];
      && (Drops(s.selector, sock, env.recv(index)) ==>
            r.server == s.(clients := CM.RemoveClient(s.clients, index).table))
      && (!Drops(s.selector, sock, env.recv(index)) ==> r.server == s)
    ensures var sock := s.clients.slots[index];
      && (Drops(s.selector, sock, env.recv(index)) || Relays(s.selector, sock, env.recv(index)) ==>
            r == ServeReady(s, index, env))
      && (!Drops(s.selector, sock, env.recv(index)) && !Relays(s.selector, sock, env.recv(index)) ==>
            r.effects == [])
  {
    var sock := CM.GetClientSocket(s.clients, index);
    if sock != INVALID_SOCKET && SM.IsSocketReady(s.selector, sock) then ServeReady(s, index, env)
    else Step(s, [])
  }

  /** A slot step touches no other slot, only ever empties its own, and
      never raises the count. */
  lemma ServeSlotSlots(s: Server, index: nat, env: Env)
    requires Valid(s) && index < CM.MAX_CLIENTS
    ensures var r := ServeSlot(s, index, env);
      && (forall j :: 0 <= j < CM.MAX_CLIENTS && j != index ==>
            r.server.clients.slots[j] == s.clients.slots[j])
      && (r.server.clients.slots[index] == s.clients.slots[index] ||
          r.server.clients.slots[index] == INVALID_SOCKET)
      && r.server.clients.count <= s.clients.count
  {
  }

  /** The ready branch of one slot step: the client's line is handled, and
      the client is evicted when the handler does not keep it. */
  function ServeReady(s: Server, index: nat, env: Env): (r: Step)
    requires Valid(s) && index < CM.MAX_CLIENTS
    requires s.clients.slots[index] != INVALID_SOCKET
    requires SM.IsSocketReady(s.selector, s.clients.slots[index])
    ensures Valid(r.server)
    ensures var sock := s.clients.slots[index];
      && (Drops(s.selector, sock, env.recv(index)) ==>
            r.server == s.(clients := CM.RemoveClient(s.clients, index).table))
      && (!Drops(s.selector, sock, env.recv(index)) ==> r.server == s)
    ensures var sock := s.clients.slots[index];
      && (Drops(s.selector, sock, env.recv(index)) ==> r.effects == Evict(s, index, env.send).effects)
      && (!Drops(s.selector, sock, env.recv(index)) ==>
            r.effects == HandleClientMessage(s, index, env.recv(index), env.send).effects)
  {
    var handled := HandleClientMessage(s, index, env.recv(index), env.send);
    if handled.keep then Step(s, handled.effects)
    else
      var evicted := Evict(s, index, env.send);
      Step(evicted.server, handled.effects + evicted.effects)
  }

  /** The packets and closes of one slot step that the pass lemmas build
      on, drawn from `ServeSlotSendsExactly`: a dropped client is announced
      to every live client, itself included, and its socket is closed; a
      relayed line reaches every live client but its sender; no other
      socket is closed. */
  lemma ServeSlotEffects(s: Server, index: nat, env: Env)
    requires Valid(s) && index < CM.MAX_CLIENTS
    ensures var r := ServeSlot(s, index, env);
      var sock := s.clients.slots[index];
      && (Drops(s.selector, sock, env.recv(index)) ==>
            && Closed(sock) in r.effects
            && forall x :: x in AllSockets(s) ==>
                 Sent(Packet(x, MS.FormatMessage(LeaveMessage(index)))) in r.effects)
      && (Relays(s.selector, sock, env.recv(index)) ==>
            forall x :: x in AllSockets(s) && x != sock ==>
              Sent(Packet(x, MS.FormatMessage(RelayMessage(index, ReadLine(sock, env.recv(index))))))
                in r.effects)
      && (forall x :: Closed(x) in r.effects ==> x == sock && Drops(s.selector, sock, env.recv(index)))
  {
  }

  /** What one slot of the client pass sends, exactly: a relayed line is
      the handler's relay and nothing more, so it never goes back to its
      sender; a dropped client's leave notices all go out before its socket
      is closed, and nothing else is sent; a slot that is empty or not ready
      sends nothing. */
  lemma ServeSlotSendsExactly(s: Server, index: nat, env: Env)
    requires Valid(s) && index < CM.MAX_CLIENTS
    ensures var r := ServeSlot(s, index, env);
      var sock := s.clients.slots[index];
      && (Relays(s.selector, sock, env.recv(index)) ==>
            && r.effects == HandleClientMessage(s, index, env.recv(index), env.send).effects
            && forall p :: Sent(p) in r.effects <==>
                 && p.target in AllSockets(s) && p.target != sock
                 && p.payload == MS.FormatMessage(RelayMessage(index, ReadLine(sock, env.recv(index)))))
      && (Drops(s.selector, sock, env.recv(index)) ==>
            && r.effects == Evict(s, index, env.send).effects
            && r.effects == AnnounceLeave(s, index, env.send) + [Closed(sock)])
      && (!Drops(s.selector, sock, env.recv(index)) && !Relays(s.selector, sock, env.recv(index)) ==>
            r.effects == [])
  {
  }

  /** The client pass: slots `from` to MAX_CLIENTS - 1 in order. It never
      fills a slot, and leaves the slots before `from` alone. */
  function ServeClients(s: Server, from: nat, env: Env): (r: Step)
    requires Valid(s) && from <= CM.MAX_CLIENTS
    ensures Valid(r.server)
    ensures r.server.listener == s.listener && r.server.running == s.running
    ensures r.server.selector == s.selector
    ensures forall j :: 0 <= j < CM.MAX_CLIENTS ==>
      r.server.clients.slots[j] == s.clients.slots[j] || r.server.clients.slots[j] == INVALID_SOCKET
    ensures forall j :: 0 <= j < from ==> r.server.clients.slots[j] == s.clients.slots[j]
    ensures r.server.clients.count <= s.clients.count
    decreases CM.MAX_CLIENTS - from
  {
    if from == CM.MAX_CLIENTS then Step(s, [])
    else
      var served := ServeSlot(s, from, env);
      ServeSlotSlots(s, from, env);
      var rest := ServeClients(served.server, from + 1, env);
      Step(rest.server, served.effects + rest.effects)
  }

  /** What the client pass does to the slots it visits: an occupied slot
      ends up empty exactly when its client is dropped (`Drops`); a slot
      that is not ready, or whose read was kept, is left alone. */
  lemma {:induction false} ServeClientsDropsExactly(s: Server, from: nat, env: Env)
    requires Valid(s) && from <= CM.MAX_CLIENTS
    ensures var r := ServeClients(s, from, env);
      forall j :: from <= j < CM.MAX_CLIENTS && s.clients.slots[j] != INVALID_SOCKET ==>
        (r.server.clients.slots[j] == INVALID_SOCKET <==>
           Drops(s.selector, s.clients.slots[j], env.recv(j)))
    decreases CM.MAX_CLIENTS - from
  {
    if from < CM.MAX_CLIENTS {
      var served := ServeSlot(s, from, env);
      ServeSlotSlots(s, from, env);
      ServeClientsDropsExactly(served.server, from + 1, env);
      forall j | from < j < CM.MAX_CLIENTS
        ensures served.server.clients.slots[j] == s.clients.slots[j]
      {
      }
    }
  }

  /** Every client the pass drops has its socket closed during the pass. */
  lemma {:induction false} ServeClientsClosesDropped(s: Server, from: nat, env: Env)
    requires Valid(s) && from <= CM.MAX_CLIENTS
    ensures var r := ServeClients(s, from, env);
      forall j :: from <= j < CM.MAX_CLIENTS && Drops(s.selector, s.clients.slots[j], env.recv(j)) ==>
        Closed(s.clients.slots[j]) in r.effects
    decreases CM.MAX_CLIENTS - from
  {
    if from < CM.MAX_CLIENTS {
      var served := ServeSlot(s, from, env);
      var rest := ServeClients(served.server, from + 1, env);
      var r := ServeClients(s, from, env);
      assert r.effects == served.effects + rest.effects;
      ServeSlotEffects(s, from, env);
      ServeSlotSlots(s, from, env);
      ServeClientsClosesDropped(served.server, from + 1, env);
      forall j | from <= j < CM.MAX_CLIENTS && Drops(s.selector, s.clients.slots[j], env.recv(j))
        ensures Closed(s.clients.slots[j]) in r.effects
      {
        if j == from {
          assert Closed(s.clients.slots[j]) in served.effects;
        } else {
          assert served.server.clients.slots[j] == s.clients.slots[j];
          assert Closed(s.clients.slots[j]) in rest.effects;
        }
      }
    }
  }

  /** Whether the client in slot `k` is still connected when a pass that
      started at slot `from` reaches slot `j`: it was connected at the start
      and was not dropped at a slot already served. */
  ghost predicate LiveAt(s: Server, from: nat, env: Env, j: nat, k: nat)
    requires Valid(s) && k < CM.MAX_CLIENTS
  {
    && s.clients.slots[k] != INVALID_SOCKET
    && !(from <= k < j && Drops(s.selector, s.clients.slots[k], env.recv(k)))
  }

  /** Every client the pass drops is announced, before its removal, to every
      client still connected at that point, the leaving one included. */
  lemma {:induction false} ServeClientsAnnouncesLeaves(s: Server, from: nat, env: Env)
    requires Valid(s) && from <= CM.MAX_CLIENTS
    ensures var r := ServeClients(s, from, env);
      forall j: nat, k: nat ::
        from <= j < CM.MAX_CLIENTS && k < CM.MAX_CLIENTS &&
        Drops(s.selector, s.clients.slots[j], env.recv(j)) && LiveAt(s, from, env, j, k) ==>
          Sent(Packet(s.clients.slots[k], MS.FormatMessage(LeaveMessage(j)))) in r.effects
    decreases CM.MAX_CLIENTS - from
  {
    if from < CM.MAX_CLIENTS {
      var r := ServeClients(s, from, env);
      var served := ServeSlot(s, from, env);
      var rest := ServeClients(served.server, from + 1, env);
      assert r.effects == served.effects + rest.effects;
      ServeSlotSlots(s, from, env);
      ServeSlotEffects(s, from, env);
      ServeClientsAnnouncesLeaves(served.server, from + 1, env);
      forall j: nat, k: nat |
        from <= j < CM.MAX_CLIENTS && k < CM.MAX_CLIENTS &&
        Drops(s.selector, s.clients.slots[j], env.recv(j)) && LiveAt(s, from, env, j, k)
        ensures Sent(Packet(s.clients.slots[k], MS.FormatMessage(LeaveMessage(j)))) in r.effects
      {
        if j == from {
          assert s.clients.slots[k] in s.clients.slots;
          assert Sent(Packet(s.clients.slots[k], MS.FormatMessage(LeaveMessage(j)))) in served.effects;
        } else {
          assert served.server.clients.slots[j] == s.clients.slots[j];
          assert served.server.clients.slots[k] == s.clients.slots[k];
          assert LiveAt(served.server, from + 1, env, j, k);
        }
      }
    }
  }

  /** Every line the pass reads successfully is relayed, with the sender's
      slot number, to every other client still connected at that point. */
  lemma {:induction false} ServeClientsRelaysLines(s: Server, from: nat, env: Env)
    requires Valid(s) && from <= CM.MAX_CLIENTS
    ensures var r := ServeClients(s, from, env);
      forall j: nat, k: nat ::
        from <= j < CM.MAX_CLIENTS && k < CM.MAX_CLIENTS &&
        Relays(s.selector, s.clients.slots[j], env.recv(j)) && LiveAt(s, from, env, j, k) &&
        s.clients.slots[k] != s.clients.slots[j] ==>
          Sent(Packet(s.clients.slots[k], MS.FormatMessage(
            RelayMessage(j, ReadLine(s.clients.slots[j], env.recv(j)))))) in r.effects
    decreases CM.MAX_CLIENTS - from
  {
    if from < CM.MAX_CLIENTS {
      var r := ServeClients(s, from, env);
      var served := ServeSlot(s, from, env);
      var rest := ServeClients(served.server, from + 1, env);
      assert r.effects == served.effects + rest.effects;
      ServeSlotSlots(s, from, env);
      ServeSlotEffects(s, from, env);
      ServeClientsRelaysLines(served.server, from + 1, env);
      forall j: nat, k: nat |
        from <= j < CM.MAX_CLIENTS && k < CM.MAX_CLIENTS &&
        Relays(s.selector, s.clients.slots[j], env.recv(j)) && LiveAt(s, from, env, j, k) &&
        s.clients.slots[k] != s.clients.slots[j]
        ensures Sent(Packet(s.clients.slots[k], MS.FormatMessage(
          RelayMessage(j, ReadLine(s.clients.slots[j], env.recv(j)))))) in r.effects
      {
        if j == from {
          assert s.clients.slots[k] in s.clients.slots;
        } else {
          assert served.server.clients.slots[j] == s.clients.slots[j];
          assert served.server.clients.slots[k] == s.clients.slots[k];
          assert LiveAt(served.server, from + 1, env, j, k);
        }
      }
    }
  }

  /** A packet that the step at slot `j` may send, judged on the table `s`
      the pass started from: the leave notice naming `j` when its client
      drops, or its relayed line when it relays, and then only to someone
      other than the sender; either way only to a client live in `s`. */
  ghost predicate SentBySlot(s: Server, env: Env, j: nat, p: Packet)
    requires Valid(s) && j < CM.MAX_CLIENTS
  {
    var sock := s.clients.slots[j];
    && p.target in AllSockets(s)
    && ((Drops(s.selector, sock, env.recv(j)) && p.payload == MS.FormatMessage(LeaveMessage(j))) ||
        (&& Relays(s.selector, sock, env.recv(j)) && p.target != sock
         && p.payload == MS.FormatMessage(RelayMessage(j, ReadLine(sock, env.recv(j))))))
  }

  /** One slot step sends only what `SentBySlot` allows for that slot. */
  lemma ServeSlotSendsOnly(s: Server, index: nat, env: Env)
    requires Valid(s) && index < CM.MAX_CLIENTS
    ensures forall p :: Sent(p) in ServeSlot(s, index, env).effects ==> SentBySlot(s, env, index, p)
  {
    ServeSlotSendsExactly(s, index, env);
    if Drops(s.selector, s.clients.slots[index], env.recv(index)) {
      var leave := AnnounceLeave(s, index, env.send);
      assert forall p :: Sent(p) in ServeSlot(s, index, env).effects ==> Sent(p) in leave;
    }
  }

  /** A slot step only ever removes live sockets. */
  lemma ServeSlotShrinksLive(s: Server, index: nat, env: Env)
    requires Valid(s) && index < CM.MAX_CLIENTS
    ensures forall x :: x in AllSockets(ServeSlot(s, index, env).server) ==> x in AllSockets(s)
  {
    var t := ServeSlot(s, index, env).server;
    forall x | x in AllSockets(t) ensures x in AllSockets(s) {
      var k :| 0 <= k < |t.clients.slots| && t.clients.slots[k] == x;
      assert s.clients.slots[k] == x;
    }
  }

  /** The client pass sends nothing but leave notices of dropped clients
      and relays of lines read successfully, never a relay back to its
      sender, and only to clients live when the pass started. */
  lemma {:induction false} ServeClientsSendsOnly(s: Server, from: nat, env: Env)
    requires Valid(s) && from <= CM.MAX_CLIENTS
    ensures forall p :: Sent(p) in ServeClients(s, from, env).effects ==>
      exists j: nat :: from <= j < CM.MAX_CLIENTS && SentBySlot(s, env, j, p)
    decreases CM.MAX_CLIENTS - from
  {
    if from < CM.MAX_CLIENTS {
      var r := ServeClients(s, from, env);
      var served := ServeSlot(s, from, env);
      var rest := ServeClients(served.server, from + 1, env);
      assert r.effects == served.effects + rest.effects;
      ServeSlotSlots(s, from, env);
      ServeSlotSendsOnly(s, from, env);
      ServeSlotShrinksLive(s, from, env);
      ServeClientsSendsOnly(served.server, from + 1, env);
      forall p | Sent(p) in r.effects
        ensures exists j: nat :: from <= j < CM.MAX_CLIENTS && SentBySlot(s, env, j, p)
      {
        if Sent(p) in served.effects {
          assert SentBySlot(s, env, from, p);
        } else {
          assert Sent(p) in rest.effects;
          var j: nat :| from + 1 <= j < CM.MAX_CLIENTS && SentBySlot(served.server, env, j, p);
          assert served.server.clients.slots[j] == s.clients.slots[j];
          assert SentBySlot(s, env, j, p);
        }
      }
    }
  }

  /** The client pass closes only the sockets of clients it drops. */
  lemma {:induction false} ServeClientsClosesOnlyDropped(s: Server, from: nat, env: Env)
    requires Valid(s) && from <= CM.MAX_CLIENTS
    ensures forall x :: Closed(x) in ServeClients(s, from, env).effects ==>
      exists j: nat ::
        (from <= j < CM.MAX_CLIENTS && x == s.clients.slots[j] &&
         Drops(s.selector, s.clients.slots[j], env.recv(j)))
    decreases CM.MAX_CLIENTS - from
  {
    if from < CM.MAX_CLIENTS {
      var r := ServeClients(s, from, env);
      var served := ServeSlot(s, from, env);
      var rest := ServeClients(served.server, from + 1, env);
      assert r.effects == served.effects + rest.effects;
      ServeSlotSlots(s, from, env);
      ServeSlotEffects(s, from, env);
      ServeClientsClosesOnlyDropped(served.server, from + 1, env);
      forall x | Closed(x) in r.effects
        ensures exists j: nat ::
          (from <= j < CM.MAX_CLIENTS && x == s.clients.slots[j] &&
           Drops(s.selector, s.clients.slots[j], env.recv(j)))
      {
        if Closed(x) !in served.effects {
          assert Closed(x) in rest.effects;
          var j: nat :| from + 1 <= j < CM.MAX_CLIENTS && x == served.server.clients.slots[j] &&
            Drops(s.selector, served.server.clients.slots[j], env.recv(j));
          assert served.server.clients.slots[j] == s.clients.slots[j];
        }
      }
    }
  }

  /** The listening-socket half of a successful pass: a ready listening
      socket is served by handleNewConnection, otherwise nothing happens.
      Either way every connected client keeps its slot. */
  function ServeListener(s: Server, env: Env): (r: Connection)
    requires Valid(s)
    ensures Valid(r.server)
    ensures r.server.listener == s.listener && r.server.running == s.running
    ensures r.server.selector == s.selector
    ensures SM.IsSocketReady(s.selector, s.listener) ==>
      r == HandleNewConnection(s, env.accepted, env.send)
    ensures !SM.IsSocketReady(s.selector, s.listener) ==> r == Connection(s, false, [])
    ensures forall j :: 0 <= j < CM.MAX_CLIENTS && s.clients.slots[j] != INVALID_SOCKET ==>
      r.server.clients.slots[j] == s.clients.slots[j]
    ensures r.server.clients.count <= s.clients.count + 1
  {
    if SM.IsSocketReady(s.selector, s.listener) then
      var r := HandleNewConnection(s, env.accepted, env.send);
      assert r.ok ==> r.server.clients == CM.AddClient(s.clients, env.accepted).table;
      r
    else Connection(s, false, [])
  }

  /** One pass of the server loop. TIMEOUT and NO_SOCKETS end the pass with
      nothing done; FAIL_SELECT ends the loop; only SUCCESS goes on to the
      listening socket and then the clients. */
  function Iterate(s: Server, env: Env): (r: Iteration)
    requires Valid(s)
    ensures Valid(r.server)
    ensures r.server.listener == s.listener && r.server.running == s.running
    ensures r.server.selector == SM.ExecuteSelect(WatchSet(s), env.select).sets
    ensures r.status == Failed <==>
      SM.ExecuteSelect(WatchSet(s), env.select).result == SM.FAIL_SELECT
    ensures SM.ExecuteSelect(WatchSet(s), env.select).result != SM.SUCCESS ==>
      r.server.clients == s.clients && r.effects == []
    ensures r.server.clients.count <= s.clients.count + 1
  {
    var polled := SM.ExecuteSelect(WatchSet(s), env.select);
    var s1 := s.(selector := polled.sets);
    match polled.result
    case TIMEOUT => Iteration(s1, Continue, [])
    case FAIL_SELECT => Iteration(s1, Failed, [])
    case NO_SOCKETS => Iteration(s1, Continue, [])
    case SUCCESS =>
      var conn := ServeListener(s1, env);
      var served := ServeClients(conn.server, 0, env);
      Iteration(served.server, Continue, conn.effects + served.effects)
  }

  /** A successful poll serves the listening socket and then the clients. */
  lemma IterateServes(s: Server, env: Env)
    requires Valid(s)
    requires SM.ExecuteSelect(WatchSet(s), env.select).result == SM.SUCCESS
    ensures var polled := SM.ExecuteSelect(WatchSet(s), env.select);
      var conn := ServeListener(s.(selector := polled.sets), env);
      var served := ServeClients(conn.server, 0, env);
      Iterate(s, env) == Iteration(served.server, Continue, conn.effects + served.effects)
  {
  }

  /** The client half of a successful pass: a client connected before the
      pass is evicted, its socket closed, exactly when its socket is ready
      and its read is not SUCCESS; the others keep their slots. No slot is
      filled unless the listening socket was ready. */
  lemma PassDropsExactly(s: Server, env: Env)
    requires Valid(s)
    requires SM.ExecuteSelect(WatchSet(s), env.select).result == SM.SUCCESS
    ensures var polled := SM.ExecuteSelect(WatchSet(s), env.select);
      var r := Iterate(s, env);
      && (forall j :: 0 <= j < CM.MAX_CLIENTS && s.clients.slots[j] != INVALID_SOCKET ==>
            (r.server.clients.slots[j] == INVALID_SOCKET <==>
               Drops(polled.sets, s.clients.slots[j], env.recv(j))))
      && (forall j :: 0 <= j < CM.MAX_CLIENTS && s.clients.slots[j] != INVALID_SOCKET ==>
            Drops(polled.sets, s.clients.slots[j], env.recv(j)) ==>
              Closed(s.clients.slots[j]) in r.effects)
      && (!SM.IsSocketReady(polled.sets, s.listener) ==>
            forall j :: 0 <= j < CM.MAX_CLIENTS && s.clients.slots[j] == INVALID_SOCKET ==>
              r.server.clients.slots[j] == INVALID_SOCKET)
  {
    var polled := SM.ExecuteSelect(WatchSet(s), env.select);
    var conn := ServeListener(s.(selector := polled.sets), env);
    var served := ServeClients(conn.server, 0, env);
    IterateServes(s, env);
    ServeClientsDropsExactly(conn.server, 0, env);
    ServeClientsClosesDropped(conn.server, 0, env);
  }

  /** The leave notices of the client half of a pass that starts from `c`,
      the table after the listening socket was served, for the clients of `s`
      that were connected before it and kept their slots. */
  lemma {:induction false} ClientsAnnounceAfterListener(s: Server, c: Server, env: Env)
    requires Valid(s) && Valid(c) && c.selector == s.selector
    requires forall j :: 0 <= j < CM.MAX_CLIENTS && s.clients.slots[j] != INVALID_SOCKET ==>
      c.clients.slots[j] == s.clients.slots[j]
    ensures forall j: nat, k: nat ::
      j < CM.MAX_CLIENTS && k < CM.MAX_CLIENTS && LiveAt(s, 0, env, j, k) &&
      Drops(s.selector, s.clients.slots[j], env.recv(j)) ==>
        Sent(Packet(s.clients.slots[k], MS.FormatMessage(LeaveMessage(j)))) in ServeClients(c, 0, env).effects
  {
    ServeClientsAnnouncesLeaves(c, 0, env);
    forall j: nat, k: nat |
      j < CM.MAX_CLIENTS && k < CM.MAX_CLIENTS && LiveAt(s, 0, env, j, k) &&
      Drops(s.selector, s.clients.slots[j], env.recv(j))
      ensures LiveAt(c, 0, env, j, k) && c.clients.slots[j] == s.clients.slots[j]
    {
    }
  }

  /** The relays of the client half of a pass that starts from `c`, for the
      clients of `s` that were connected before it and kept their slots. */
  lemma {:induction false} ClientsRelayAfterListener(s: Server, c: Server, env: Env)
    requires Valid(s) && Valid(c) && c.selector == s.selector
    requires forall j :: 0 <= j < CM.MAX_CLIENTS && s.clients.slots[j] != INVALID_SOCKET ==>
      c.clients.slots[j] == s.clients.slots[j]
    ensures forall j: nat, k: nat ::
      j < CM.MAX_CLIENTS && k < CM.MAX_CLIENTS && LiveAt(s, 0, env, j, k) &&
      Relays(s.selector, s.clients.slots[j], env.recv(j)) &&
      s.clients.slots[k] != s.clients.slots[j] ==>
        Sent(Packet(s.clients.slots[k], MS.FormatMessage(
          RelayMessage(j, ReadLine(s.clients.slots[j], env.recv(j)))))) in ServeClients(c, 0, env).effects
  {
    ServeClientsRelaysLines(c, 0, env);
    forall j: nat, k: nat |
      j < CM.MAX_CLIENTS && k < CM.MAX_CLIENTS && LiveAt(s, 0, env, j, k) &&
      Relays(s.selector, s.clients.slots[j], env.recv(j))
      ensures LiveAt(c, 0, env, j, k) && c.clients.slots[j] == s.clients.slots[j]
    {
    }
  }

  /** The leave notices of a successful pass, for the clients connected
      before it: a dropped client's notice reaches every client still
      connected when its slot is served, itself included. */
  lemma PassAnnouncesLeaves(s: Server, env: Env)
    requires Valid(s)
    requires SM.ExecuteSelect(WatchSet(s), env.select).result == SM.SUCCESS
    ensures var s1 := s.(selector := SM.ExecuteSelect(WatchSet(s), env.select).sets);
      forall j: nat, k: nat ::
        j < CM.MAX_CLIENTS && k < CM.MAX_CLIENTS && LiveAt(s1, 0, env, j, k) &&
        Drops(s1.selector, s.clients.slots[j], env.recv(j)) ==>
          Sent(Packet(s.clients.slots[k], MS.FormatMessage(LeaveMessage(j)))) in Iterate(s, env).effects
  {
    var s1 := s.(selector := SM.ExecuteSelect(WatchSet(s), env.select).sets);
    var conn := ServeListener(s1, env);
    var served := ServeClients(conn.server, 0, env);
    IterateServes(s, env);
    ClientsAnnounceAfterListener(s1, conn.server, env);
    assert forall e :: e in served.effects ==> e in Iterate(s, env).effects;
  }

  /** The relays of a successful pass, for the clients connected before it:
      a line read successfully reaches every client still connected when its
      slot is served, except its sender. */
  lemma PassRelaysLines(s: Server, env: Env)
    requires Valid(s)
    requires SM.ExecuteSelect(WatchSet(s), env.select).result == SM.SUCCESS
    ensures var s1 := s.(selector := SM.ExecuteSelect(WatchSet(s), env.select).sets);
      forall j: nat, k: nat ::
        j < CM.MAX_CLIENTS && k < CM.MAX_CLIENTS && LiveAt(s1, 0, env, j, k) &&
        Relays(s1.selector, s.clients.slots[j], env.recv(j)) &&
        s.clients.slots[k] != s.clients.slots[j] ==>
          Sent(Packet(s.clients.slots[k], MS.FormatMessage(
            RelayMessage(j, ReadLine(s.clients.slots[j], env.recv(j)))))) in Iterate(s, env).effects
  {
    var s1 := s.(selector := SM.ExecuteSelect(WatchSet(s), env.select).sets);
    var conn := ServeListener(s1, env);
    var served := ServeClients(conn.server, 0, env);
    IterateServes(s, env);
    ClientsRelayAfterListener(s1, conn.server, env);
    assert forall e :: e in served.effects ==> e in Iterate(s, env).effects;
  }

  /** The server loop over a finite list of rounds: it returns SUCCESS once
      the running flag is seen clear, FAIL_LOOP as soon as a poll fails, and
      nothing (None) if the rounds run out while it is still running. */
  function RunServerLoop(s: Server, rounds: seq<Round>): (r: Run)
    requires Valid(s)
    ensures Valid(r.server)
    ensures r.server.listener == s.listener
    ensures r.result == Some(SUCCESS) ==> !r.server.running
    ensures r.result == Some(FAIL_LOOP) ==> r.server.running
    ensures r.result == None ==> r.server.running
    ensures r.result in {None, Some(SUCCESS), Some(FAIL_LOOP)}
    ensures !s.running ==> r == Run(s, Some(SUCCESS), [])
    ensures s.running && |rounds| > 0 && rounds[0].StopRequested? ==>
      r == RunServerLoop(Stop(s), rounds[1..])
    ensures s.running && |rounds| > 0 && rounds[0].Poll? ==>
      var it := Iterate(s, rounds[0].env);
      && (it.status == Failed ==> r == Run(it.server, Some(FAIL_LOOP), it.effects))
      && (it.status == Continue ==>
            var rest := RunServerLoop(it.server, rounds[1..]);
            && r.server == rest.server && r.result == rest.result
            && r.effects == it.effects + rest.effects)
    decreases |rounds|
  {
    if !s.running then Run(s, Some(SUCCESS), [])
    else if |rounds| == 0 then Run(s, None, [])
    else
      match rounds[0]
      case StopRequested => RunServerLoop(Stop(s), rounds[1..])
      case Poll(env) =>
        var it := Iterate(s, env);
        if it.status == Failed then Run(it.server, Some(FAIL_LOOP), it.effects)
        else
          var rest := RunServerLoop(it.server, rounds[1..]);
          Run(rest.server, rest.result, it.effects + rest.effects)
  }

  /** A framed line from a connected client that is not "quit" keeps the
      connection and reaches every other live client, prefixed with the
      sender's slot number; the sender does not get it back. */
  lemma RelayReachesOthers(s: Server, index: nat, message: string, send: SendFn)
    requires Valid(s)
    requires CM.GetClientSocket(s.clients, index) != INVALID_SOCKET
    requires |message| + 2 < MR.BUFFER_SIZE && '\0' !in message
    requires message != MR.QUIT_COMMAND
    ensures var wire := MS.FormatMessage(message);
      var r := HandleClientMessage(s, index, MR.RawRecv(|wire|, wire), send);
      var sock := CM.GetClientSocket(s.clients, index);
      && r.keep
      && (forall x :: x in AllSockets(s) && x != sock ==>
            Sent(Packet(x, MS.FormatMessage(RelayMessage(index, message)))) in r.effects)
      && (forall p :: Sent(p) in r.effects ==> p.target != sock)
  {
    var sock := CM.GetClientSocket(s.clients, index);
    MR.ReceiveFramedLine(MR.Create(sock), message);
  }

  /** A client that sends "quit" is dropped without a goodbye: the receiver
      reports CLIENT_QUIT, which the handler treats like any other failed
      read, so nothing is sent before the eviction. */
  lemma QuitDropsWithoutGoodbye(s: Server, index: nat, send: SendFn)
    requires Valid(s)
    requires CM.GetClientSocket(s.clients, index) != INVALID_SOCKET
    ensures var wire := MS.FormatMessage(MR.QUIT_COMMAND);
      var r := HandleClientMessage(s, index, MR.RawRecv(|wire|, wire), send);
      !r.keep && r.effects == []
  {
    var sock := CM.GetClientSocket(s.clients, index);
    MR.ReceiveFramedLine(MR.Create(sock), MR.QUIT_COMMAND);
  }

  /** A stop request before the running flag is next checked ends the loop
      with SUCCESS and no further effects, whatever rounds remain. */
  lemma StopEndsLoop(s: Server, rounds: seq<Round>)
    requires Valid(s)
    ensures RunServerLoop(s, [StopRequested] + rounds) == Run(Stop(s), Some(SUCCESS), [])
  {
  }

  /** A failed select() ends the loop at once with FAIL_LOOP and the server
      still marked running. */
  lemma FailedPollEndsLoop(s: Server, env: Env, rounds: seq<Round>)
    requires Valid(s) && s.running
    requires SM.ExecuteSelect(WatchSet(s), env.select).result == SM.FAIL_SELECT
    ensures var r := RunServerLoop(s, [Poll(env)] + rounds);
      r.result == Some(FAIL_LOOP) && r.server.running && r.effects == []
  {
  }

  /** With the listening socket marked, a pending connection that finds a
      free slot is admitted in the pass, and its client sees the welcome
      before anything else the pass sends. */
  lemma PassAdmitsPendingConnection(s: Server, env: Env)
    requires Valid(s) && s.listener != INVALID_SOCKET
    requires env.select.ret != SOCKET_ERROR && env.select.ret != 0
    requires s.listener in env.select.marked
    requires env.accepted != INVALID_SOCKET && !CM.Full(s.clients)
    ensures var r := Iterate(s, env);
      var added := CM.AddClient(s.clients, env.accepted);
      && r.status == Continue
      && |r.effects| > 0
      && r.effects[0] == Sent(Packet(env.accepted,
           MS.FormatMessage(WelcomeMessage(added.index, s.clients.count + 1))))
  {
  }

  /** A ready client that sends "quit" is evicted wherever the pass meets
      it: every client still connected at that point, itself included, gets
      the leave notice, its slot is emptied and its socket closed. */
  lemma QuitEvictedInPass(s: Server, from: nat, j: nat, env: Env)
    requires Valid(s) && from <= j < CM.MAX_CLIENTS
    requires s.clients.slots[j] != INVALID_SOCKET
    requires SM.IsSocketReady(s.selector, s.clients.slots[j])
    requires var wire := MS.FormatMessage(MR.QUIT_COMMAND);
      env.recv(j) == MR.RawRecv(|wire|, wire)
    ensures var r := ServeClients(s, from, env);
      && r.server.clients.slots[j] == INVALID_SOCKET
      && Closed(s.clients.slots[j]) in r.effects
      && forall k: nat :: k < CM.MAX_CLIENTS && LiveAt(s, from, env, j, k) ==>
           Sent(Packet(s.clients.slots[k], MS.FormatMessage(LeaveMessage(j)))) in r.effects
  {
    MR.ReceiveFramedLine(MR.Create(s.clients.slots[j]), MR.QUIT_COMMAND);
    assert Drops(s.selector, s.clients.slots[j], env.recv(j));
    ServeClientsDropsExactly(s, from, env);
    ServeClientsClosesDropped(s, from, env);
    ServeClientsAnnouncesLeaves(s, from, env);
  }
}

=== FILE: net.dfy ===
/** Shared vocabulary of the socket layer: handles and the sentinel values
    Winsock uses, what an attempted send or a close is recorded as, and the
    decimal rendering `std::to_string` gives a non-negative index. */
module Net {

  /** A Winsock SOCKET handle. The server only ever compares handles for
      equality, so any value type would do. */
  type Socket = int

  /** Stands for Winsock's INVALID_SOCKET (the all-ones UINT_PTR). */
  const INVALID_SOCKET: Socket := -1

  /** The value send, recv and select return on failure. */
  const SOCKET_ERROR: int := -1

  /** One call of send(): the target socket and the exact bytes handed over. */
  datatype Packet = Packet(target: Socket, payload: string)

  /** An externally visible action of a server, recorded in the order taken. */
  datatype Effect = Sent(packet: Packet) | Closed(socket: Socket)

  /** What send() returns for a socket. Only SOCKET_ERROR versus anything
      else matters to the server; partial byte counts are not modelled. */
  type SendFn = Socket -> int

  /** The send attempts of a fan-out, as effects in the same order. */
  function AsEffects(ps: seq<Packet>): (es: seq<Effect>)
    ensures |es| == |ps|
    ensures forall k :: 0 <= k < |es| ==> es[k] == Sent(ps[k])
    ensures forall p :: Sent(p) in es <==> p in ps
    ensures forall s :: Closed(s) !in es
  {
    if |ps| == 0 then [] else AsEffects(ps[..|ps| - 1]) + [Sent(ps[|ps| - 1])]
  }

  /** A result that may be absent. */
  datatype Option<T> = None | Some(value: T)

  /** What socket(), bind() and listen() report when a server starts: the
      created handle (INVALID_SOCKET on failure) and whether the other two
      calls succeeded. */
  datatype Transport = Transport(created: Socket, bindOk: bool, listenOk: bool)

  /** How many entries of a list are real sockets (not INVALID_SOCKET). */
  function RealCount(sockets: seq<Socket>): (n: nat)
    ensures n <= |sockets|
    ensures n == |sockets| <==> forall k :: 0 <= k < |sockets| ==> sockets[k] != INVALID_SOCKET
    ensures n == 0 <==> forall k :: 0 <= k < |sockets| ==> sockets[k] == INVALID_SOCKET
  {
    if |sockets| == 0 then 0
    else
      var init := sockets[..|sockets| - 1];
      assert forall k :: 0 <= k < |init| ==> init[k] == sockets[k];
      RealCount(init) + (if sockets[|sockets| - 1] != INVALID_SOCKET then 1 else 0)
  }

  /** The real sockets of a list, in list order: what a fan-out over the list
      actually hands to send(). */
  function RealSockets(sockets: seq<Socket>): (rs: seq<Socket>)
    ensures |rs| == RealCount(sockets)
    ensures forall k :: 0 <= k < |rs| ==> rs[k] != INVALID_SOCKET
    ensures forall x :: x in rs <==> x in sockets && x != INVALID_SOCKET
    ensures RealCount(sockets) == |sockets| ==> rs == sockets
  {
    if |sockets| == 0 then []
    else
      var init := sockets[..|sockets| - 1];
      var last := sockets[|sockets| - 1];
      assert sockets == init + [last];
      RealSockets(init) + (if last != INVALID_SOCKET then [last] else [])
  }

  /** Filtering distributes over concatenation, so RealSockets keeps the
      relative order of the entries it keeps. */
  lemma {:induction false} RealSocketsAppend(a: seq<Socket>, b: seq<Socket>)
    ensures RealSockets(a + b) == RealSockets(a) + RealSockets(b)
    decreases |b|
  {
    if |b| == 0 {
      assert a + b == a;
    } else {
      var init := b[..|b| - 1];
      assert (a + b)[..|a + b| - 1] == a + init;
      assert (a + b)[|a + b| - 1] == b[|b| - 1];
      RealSocketsAppend(a, init);
    }
  }

  predicate IsDigit(c: char) {
    '0' <= c <= '9'
  }

  function DigitChar(d: nat): (c: char)
    requires d < 10
    ensures IsDigit(c)
    ensures c as int == '0' as int + d
  {
    "0123456789"[d]
  }

  function DigitValue(c: char): (d: nat)
    requires IsDigit(c)
    ensures d < 10
  {
    (c as int) - ('0' as int)
  }

  /** `std::to_string` of a non-negative integer: its shortest decimal form. */
  function Decimal(n: nat): (s: string)
    ensures 1 <= |s|
    ensures forall k :: 0 <= k < |s| ==> IsDigit(s[k])
    ensures (n < 10) == (|s| == 1)
    ensures s[0] == '0' ==> n == 0
  {
    if n < 10 then [DigitChar(n)] else Decimal(n / 10) + [DigitChar(n % 10)]
  }

  /** Reads a string of decimal digits back as a number. */
  function ParseDecimal(s: string): nat
    requires forall k :: 0 <= k < |s| ==> IsDigit(s[k])
  {
    if |s| == 0 then 0
    else 10 * ParseDecimal(s[..|s| - 1]) + DigitValue(s[|s| - 1])
  }

  /** Reading the decimal form back gives the number: `Decimal` loses nothing. */
  lemma {:induction false} DecimalRoundTrip(n: nat)
    ensures ParseDecimal(Decimal(n)) == n
  {
    var s := Decimal(n);
    if n < 10 {
      assert s[..0] == [];
    } else {
      DecimalRoundTrip(n / 10);
      assert s[..|s| - 1] == Decimal(n / 10);
    }
  }

  /** Distinct numbers have distinct decimal forms. */
  lemma DecimalInjective(a: nat, b: nat)
    ensures Decimal(a) == Decimal(b) ==> a == b
  {
    DecimalRoundTrip(a);
    DecimalRoundTrip(b);
  }
}

=== FILE: select_manager.dfy ===
/** The readiness multiplexer: a watch set rebuilt each iteration, one
    select() call over a copy of it, and readiness queries against that
    copy. The fd_set is modelled as a mathematical set; what select()
    returns and which watched sockets it leaves marked are inputs. */
module SelectManager {
  import opened Net

  datatype Result = SUCCESS | TIMEOUT | FAIL_SELECT | NO_SOCKETS

  /** `origin` is the watch set, `copy` the set handed to (and narrowed by)
      select(), `count` the number of successful addSocket calls. */
  datatype FdSets = FdSets(origin: set<Socket>, copy: set<Socket>, count: int)

  /** The outcome of one select() call: its return value and the sockets it
      reports read-ready. */
  datatype SelectOutcome = SelectOutcome(ret: int, marked: set<Socket>)

  datatype Added = Added(sets: FdSets, ok: bool)

  datatype Polled = Polled(sets: FdSets, result: Result)

  /** The constructor: both sets empty and nothing counted. */
  function Create(): (m: FdSets)
    ensures m.origin == {} && m.copy == {} && m.count == 0
  {
    FdSets({}, {}, 0)
  }

  /** Empties the watch set and resets the count; the copy is left alone. */
  function SetupFdSet(m: FdSets): (r: FdSets)
    ensures r.origin == {} && r.count == 0
    ensures r.copy == m.copy
  {
    FdSets({}, m.copy, 0)
  }

  /** Watches one more socket; INVALID_SOCKET is refused and changes nothing. */
  function AddSocket(m: FdSets, s: Socket): (r: Added)
    ensures r.ok <==> s != INVALID_SOCKET
    ensures !r.ok ==> r.sets == m
    ensures r.ok ==> r.sets.origin == m.origin + {s} && r.sets.count == m.count + 1
    ensures r.sets.copy == m.copy
  {
    if s == INVALID_SOCKET then Added(m, false)
    else Added(FdSets(m.origin + {s}, m.copy, m.count + 1), true)
  }

  /** Classifies the select() return value as the source does: SOCKET_ERROR
      is a failure, 0 a timeout, anything else success. */
  function ClassifySelect(ret: int): (r: Result)
    ensures r == FAIL_SELECT <==> ret == SOCKET_ERROR
    ensures r == TIMEOUT <==> ret == 0
    ensures r == SUCCESS <==> ret != SOCKET_ERROR && ret != 0
    ensures r != NO_SOCKETS
  {
    if ret == SOCKET_ERROR then FAIL_SELECT
    else if ret == 0 then TIMEOUT
    else SUCCESS
  }

  /** Runs select() on a fresh copy of the watch set. With nothing watched it
      returns NO_SOCKETS at once: no select() call, nothing changed.
      Otherwise the copy becomes the watched sockets select() marks, and the
      watch set itself is untouched. */
  function ExecuteSelect(m: FdSets, outcome: SelectOutcome): (r: Polled)
    ensures m.count == 0 <==> r.result == NO_SOCKETS
    ensures m.count == 0 ==> r.sets == m
    ensures m.count != 0 ==>
      && r.sets.origin == m.origin && r.sets.count == m.count
      && r.sets.copy == m.origin * outcome.marked
      && (r.result == FAIL_SELECT <==> outcome.ret == SOCKET_ERROR)
      && (r.result == TIMEOUT <==> outcome.ret == 0)
      && (r.result == SUCCESS <==> outcome.ret != SOCKET_ERROR && outcome.ret != 0)
  {
    if m.count == 0 then Polled(m, NO_SOCKETS)
    else
      var copy := m.origin;
      Polled(FdSets(m.origin, copy * outcome.marked, m.count), ClassifySelect(outcome.ret))
  }

  /** Whether select() left `s` marked in the copy. */
  predicate IsSocketReady(m: FdSets, s: Socket) {
    s in m.copy
  }

  /** After a real select() call a socket is ready exactly when it is
      watched and select() marked it: a marked socket that was never added
      is not reported. */
  lemma ReadyImpliesWatched(m: FdSets, outcome: SelectOutcome, s: Socket)
    requires m.count != 0
    ensures IsSocketReady(ExecuteSelect(m, outcome).sets, s) ==> s in m.origin
    ensures IsSocketReady(ExecuteSelect(m, outcome).sets, s) <==> s in m.origin && s in outcome.marked
  {
  }

  /** Adds every socket of a list in order, as the server loop does. */
  function AddAll(m: FdSets, sockets: seq<Socket>): (r: FdSets)
    ensures r.copy == m.copy
    ensures forall s :: s in r.origin <==> s in m.origin || (s in sockets && s != INVALID_SOCKET)
    ensures r.count == m.count + RealCount(sockets)
  {
    if |sockets| == 0 then m
    else
      var init := sockets[..|sockets| - 1];
      var last := sockets[|sockets| - 1];
      assert sockets == init + [last];
      assert forall k :: 0 <= k < |init| ==> init[k] == sockets[k];
      AddSocket(AddAll(m, init), last).sets
  }

  /** Rebuilding the watch set from scratch forgets everything watched
      before: only the sockets added since the reset are watched. */
  lemma RebuildForgetsPrevious(m: FdSets, sockets: seq<Socket>)
    ensures AddAll(SetupFdSet(m), sockets).origin == set s | s in sockets && s != INVALID_SOCKET
  {
  }
}
